=== FILE: README.md ===
# OVR wire layer in Dafny

This project models the layer of the OVR Unity framework that sits between abstract odorant commands and the scent device, and proves properties of that model. The layer has these parts:

- **Frame header.** Every UDP message starts with a 4-byte `MarshalHeader`: `[checksum, type, sizeLo, sizeHi]`. The checksum makes `checksum + type + size` a multiple of 251.
- **Odorant command.** A command is a name plus a 4-byte buffer `[slot, algorithm, intensityLo, intensityHi]`. That buffer is also its wire record.
- **Broadcast addresses.** Discovery needs the broadcast address of each local subnet. This is the subnet-directed broadcast of section 3.2.1.3 of RFC 1122, `(address & mask) | ~mask`. The list of addresses starts with the limited broadcast 255.255.255.255.
- **UDP gateway.** It has these pieces:
  - a capped command buffer;
  - the discovery (hostname request) packet;
  - the batch packet: a header and then one 4-byte record per command;
  - the 2000 ms liveness timeout;
  - the receive callback, which branches on header validity, message type and hostname.
- **Serial gateway.** Writes are framed with a 2-byte big-endian length. The port is found by a version handshake. Commands go out as one `[type, count, (slot, algorithm, intensity)*]` packet.
- **Olfactory epithelium.** It aggregates the frame's commands (`AddOdorantCommand`). Once per frame, `Update` keeps the connection alive, delivers the batch to the gateway in use and clears the list.

Everything is modelled as immutable values and pure functions, plus two methods: the serial read loop (`ReadReplies`, the one loop in the model) and the serial connection check that runs it. Bytes are `int`s in 0..255, IPv4 addresses are `bv32`, and strings are `seq<char>`.

Anything external comes in as a parameter:
- sockets and serial ports;
- the operating system's interfaces and masks;
- clocks, given as integer milliseconds;
- whether a write goes through;
- what the device replies.

Each step that writes returns the bytes it would put on the wire: the datagrams of the UDP gateway, the frames of the serial writes, and the version query `SerialGateway.CheckConnection` sends.

Files:

| file | module | contents |
|---|---|---|
| wrappers.dfy | `Wrappers` | `Option`, `Result` |
| bytes.dfy | `Bytes` | `byte`, `uint16`, C# narrowing casts, little-endian pairs, buffer overwrite |
| message_types.dfy | `MessageTypes` | message-type codes |
| header.dfy | `Header` | `MarshalHeader` codec |
| text.dfy | `Text` | decimal rendering and comma-separated fields for the CSV line |
| odorant_command.dfy | `Commands` | `OdorantCommand` |
| ip_address.dfy | `IpAddresses` | broadcast address computation |
| wifi_gateway.dfy | `WifiGateway` | UDP gateway |
| serial_gateway.dfy | `SerialGateway` | USB serial gateway |
| epithelium.dfy | `Epithelium` | aggregator and per-frame cycle |

Notes on how the model reads the code:

- **Placeholder codes.** The numeric values of the message types and of the `Burst`/`Ambient` algorithms are defined outside the modelled files. They are distinct placeholder constants, and no proof depends on their values.
- **Duplicate slots.** The doc comment of `AddOdorantCommand` says a second command for a slot already present is not added. The code does something else, and the model follows the code:
  - the first command for that slot takes the mean of the two intensities, cast to `byte`;
  - the new command is then appended anyway.
- **Serial intensity.** `CommandsToBytes` in the serial gateway stores the 16-bit `Intensity` into a `byte[]` element. A C# compiler rejects that implicit narrowing, so the model keeps the low byte.
- **Batch size field.** The UDP batch header carries `(ushort)(4n)`, which wraps for 16384 commands or more. The wrap is modelled and proved to break the datagram (`BatchSizeWraps`).
- **Short datagrams.** The receive callback indexes the datagram without checking its length. Where the code would throw, the model returns a `Failure` and leaves the gateway state unchanged.
- **OnConnect before Init.** `OnConnect` writes into the packet buffer, which does not exist before `Init`. The model sets the endpoint and sends nothing in that case.
- **Serial read timeouts.** When the device's lines run out before the handshake decides, `ReadLine` would block or throw. The model reports this as a `ReplyTimeout` failure.
- **Serial exceptions.** Two other serial faults leave the call as exceptions, and the model reports each as a `Failure`:
  - a reply line of exactly 11 characters, on which `Remove(11)` throws (see Findings);
  - an `Open` that throws anything but an `IOException`, for example on a port held by another process.
- **Static state.** Several fields of the gateways are `static`. The model keeps them per gateway value; see "Left out".

## Model

| member | source | states |
|---|---|---|
| Header.Valid | Runtime/Source/API/MarshalHeader.cs:11 | A header is trusted iff checksum + type + size is a multiple of 251; `Encode` and `DecodeValidity` are proved against this definition |
| Header.TotalMessageSize | Runtime/Source/API/MarshalHeader.cs:10 | A message is the 4 header bytes plus `messageSize` payload bytes; the batch and discovery lemmas prove their datagrams have exactly this length |
| Header.ToBytes | Runtime/Source/API/MarshalHeader.cs:37-43 | Four bytes: checksum, type, then the size little-endian; `DecodeToBytes` and `ToBytesDecode` make it the inverse of `Decode` |
| Header.Decode | Runtime/Source/API/MarshalHeader.cs:30-35 | Reads the four bytes at the offset without any check; validity is a separate test (`DecodeValidity`) |
| Header.Encode | Runtime/Source/API/MarshalHeader.cs:23-28 | The checksum is 251 − ((type+size) mod 251), so it lies in 1..251 and equals 251 exactly when (type+size) mod 251 is 0; type and size are kept; the header is valid |
| Header.ExampleChecksum | Runtime/Source/API/MarshalHeader.cs:11-27 | Type 5 with size 8 gets checksum 238, and its bytes decode to a valid header |
| Header.DecodeValidity | Runtime/Source/API/MarshalHeader.cs:11-35 | Decoding itself never rejects; a decoded header is valid iff b0 + b1 + b2 + 256·b3 is a multiple of 251 |
| Header.DecodeToBytes | Runtime/Source/API/MarshalHeader.cs:30-43 | Decoding the bytes `[checksum, type, size & 0xFF, size >> 8]` of any header gives that header back |
| Header.ToBytesDecode | Runtime/Source/API/MarshalHeader.cs:30-43 | Re-encoding a decoded header gives back the four bytes it was read from |
| Header.EncodeDecodeRoundTrip | Runtime/Source/API/MarshalHeader.cs:23-43 | Decode after encode recovers type and size exactly, and the result is valid |
| Header.ValidHeaderIsEncoded | Runtime/Source/API/MarshalHeader.cs:11-27 | A valid header whose checksum lies in 1..251 is the one `Set(type, size)` builds |
| Header.ZeroChecksumAlsoValid | Runtime/Source/API/MarshalHeader.cs:11 | A valid header need not be an encoded one: checksum 0 over a zero sum also passes |
| Header.DecodeSameBytes | Runtime/Source/API/MarshalHeader.cs:30-35 | Decoding reads only the four bytes at the offset |
| Header.WriteHeader | Runtime/Source/API/MarshalHeader.cs:17-21 | The static `Set(ref buffer, …)` keeps the buffer length, leaves every byte past 3 unchanged, and bytes 0..3 decode to `Encode(type, size)` |
| Commands.OdorantCommand.WithSlot | Runtime/Source/Data/OdorantCommand.cs:64-74 | Setting the slot changes byte 0 only; algorithm, intensity and name are unchanged |
| Commands.OdorantCommand.WithAlgorithm | Runtime/Source/Data/OdorantCommand.cs:76-86 | Setting the algorithm changes byte 1 only; slot, intensity and name are unchanged |
| Commands.OdorantCommand.WithIntensity | Runtime/Source/Data/OdorantCommand.cs:88-101 | Set-then-get of the little-endian intensity returns the value; bytes 0 and 1 and the other fields are unchanged |
| Commands.GetPacket | Runtime/Source/Data/OdorantCommand.cs:40-43 | The packet is `[slot, algorithm, intensity lo, intensity hi]` |
| Commands.PacketRoundTrip | Runtime/Source/Data/OdorantCommand.cs:64-103 | A command is determined by its name, slot, algorithm and intensity |
| Commands.FieldsRoundTrip | Runtime/Source/Data/OdorantCommand.cs:64-103 | Any slot, algorithm and 16-bit intensity written into a packet read back unchanged |
| Commands.NewCommand | Runtime/Source/Data/OdorantCommand.cs:32-38 | The constructor copies name and slot from the config and the algorithm's code; intensity defaults to 0 |
| Commands.AlgorithmLabel | Runtime/Source/Data/OdorantCommand.cs:52-55 | The label is "Ambient" iff the byte is the Ambient code, "Burst" for every other byte |
| Commands.CsvFieldsReadBack | Runtime/Source/Data/OdorantCommand.cs:50-58 | For a comma-free name, the CSV line splits into four fields: the name, the one-based slot, the algorithm label and the intensity, in decimal |
| Commands.RemoveSlot | Runtime/Source/Gateways/WiFiDeviceGateway.cs:178-181 | `RemoveAll(c => c.Slot == slot)`: no command for the slot is left, and every other command is kept |
| Commands.RemoveSlotAppend | Runtime/Source/Gateways/WiFiDeviceGateway.cs:178-181 | Removal distributes over concatenation, so it keeps the relative order of the rest |
| Commands.RemoveSlotIdempotent | Runtime/Source/Gateways/WiFiDeviceGateway.cs:178-181 | Removing a slot twice equals removing it once |
| Commands.ToCsv | Runtime/Source/Data/OdorantCommand.cs:50-58 | The activation-log line: name, one-based slot, algorithm label and intensity, comma-separated; `CsvFieldsReadBack` proves the fields read back |
| Text.DecimalRoundTrip | Runtime/Source/Data/OdorantCommand.cs:57 | The decimal rendering of a number parses back to it |
| Text.SplitJoin | Runtime/Source/Data/OdorantCommand.cs:57 | Comma-joined fields without commas split back into the same fields |
| IpAddresses.Broadcast | Runtime/Source/Gateways/IPAddressExtensions.cs:80 | `(address & mask) \| (mask ^ 0xFFFFFFFF)`; `BroadcastBits` and `BroadcastUnique` characterise it as the only address keeping the network bits with all host bits set |
| IpAddresses.GetBroadcastAddresses | Runtime/Source/Gateways/IPAddressExtensions.cs:62-72 | The limited broadcast, then one broadcast per local IPv4 address; `BroadcastListShape` proves it never fails and gives its contents |
| IpAddresses.BroadcastBits | Runtime/Source/Gateways/IPAddressExtensions.cs:82-88 | The broadcast keeps the network bits (`b & m == a & m`) and sets every host bit (`b \| m == 0xFFFFFFFF`) |
| IpAddresses.BroadcastUnique | Runtime/Source/Gateways/IPAddressExtensions.cs:82-88 | The broadcast is the only address with those two properties |
| IpAddresses.BroadcastIdempotent | Runtime/Source/Gateways/IPAddressExtensions.cs:87 | Broadcasting a broadcast address changes nothing |
| IpAddresses.BroadcastExample | Runtime/Source/Gateways/IPAddressExtensions.cs:87 | 192.168.1.42 with mask 255.255.255.0 gives 192.168.1.255 |
| IpAddresses.GetBroadcastAddressWithMask | Runtime/Source/Gateways/IPAddressExtensions.cs:82-88 | A non-IPv4 address or mask is an error, not a result; otherwise the result keeps the network bits and sets the host bits |
| IpAddresses.LocalIpv4 | Runtime/Source/Gateways/IPAddressExtensions.cs:22-41 | Only IPv4 addresses are listed, and each is carried by some interface |
| IpAddresses.LocalIpv4Members | Runtime/Source/Gateways/IPAddressExtensions.cs:22-41 | An address is listed iff it is IPv4 and carried by an interface that is up: none from a down interface, none missing |
| IpAddresses.LocalIpv4Append | Runtime/Source/Gateways/IPAddressExtensions.cs:26-38 | The list keeps interface order: the addresses of two groups of interfaces are the first group's, then the second's |
| IpAddresses.LocalIpv4Single | Runtime/Source/Gateways/IPAddressExtensions.cs:28-36 | One interface contributes its IPv4 entries in order if it is up, and nothing if it is not |
| IpAddresses.GetSubnetMask | Runtime/Source/Gateways/IPAddressExtensions.cs:43-59 | A mask is found iff the address is IPv4 and some interface, up or not, carries it; the mask is the one search over all entries in interface order finds, i.e. that of the first carrying entry; otherwise the lookup fails |
| IpAddresses.FindMask | Runtime/Source/Gateways/IPAddressExtensions.cs:47-55 | Found iff the address is IPv4 and some entry carries it; the mask is that of the first such entry |
| IpAddresses.FindMaskAppend | Runtime/Source/Gateways/IPAddressExtensions.cs:45-57 | Searching two lists in turn gives the same answer as searching their concatenation |
| IpAddresses.GetBroadcastAddress | Runtime/Source/Gateways/IPAddressExtensions.cs:73-81 | Succeeds iff the address is IPv4 and carried, with the broadcast under its own mask; a non-IPv4 address is rejected |
| IpAddresses.BroadcastListShape | Runtime/Source/Gateways/IPAddressExtensions.cs:62-72 | The list never fails: 255.255.255.255 first, then one broadcast per local IPv4 address, in order |
| WifiGateway.HostnameRequestPacket | Runtime/Source/Gateways/WiFiDeviceGateway.cs:86-88 | The discovery request is 6 bytes: a header, then the receive port; `HostnameRequestDecodes` proves how it reads back |
| WifiGateway.IsConnected | Runtime/Source/Gateways/WiFiDeviceGateway.cs:225-228 | Connected iff a device endpoint is known |
| WifiGateway.HasCommandsToSend | Runtime/Source/Gateways/WiFiDeviceGateway.cs:215-218 | Something to send iff at least one command is held |
| WifiGateway.HostnameRequestDecodes | Runtime/Source/Gateways/WiFiDeviceGateway.cs:86-88 | The discovery packet decodes as a valid HostnameRequest header of size 2 that accounts for the whole datagram, and its payload reads back as the receive port |
| WifiGateway.NewGateway | Runtime/Source/Gateways/WiFiDeviceGateway.cs:70-92 | A new gateway keeps the target hostname, holds no commands, has no buffer and a cap of 0, knows no device, has not started its timer, and carries the hostname-request packet |
| WifiGateway.Init | Runtime/Source/Gateways/WiFiDeviceGateway.cs:155-160 | The buffer is a zeroed header plus `max` records, the timer is running (an already running one is left alone), and the hostname, request packet, commands, device and debug flag are kept |
| WifiGateway.AddCommand | Runtime/Source/Gateways/WiFiDeviceGateway.cs:162-168 | A no-op at capacity, otherwise appends; keeps the count within the cap |
| WifiGateway.AddCommands | Runtime/Source/Gateways/WiFiDeviceGateway.cs:170-176 | All or nothing: nothing if the batch would overflow the cap, otherwise appends all in order; keeps the count within the cap |
| WifiGateway.RemoveCommand | Runtime/Source/Gateways/WiFiDeviceGateway.cs:178-181 | Every command for the slot is gone, and nothing else in the gateway changes |
| WifiGateway.ClearCommands | Runtime/Source/Gateways/WiFiDeviceGateway.cs:183-186 | Afterwards nothing is left to send (`HasCommandsToSend` is false), and nothing else changes |
| WifiGateway.WriteRecords | Runtime/Source/Gateways/WiFiDeviceGateway.cs:206-210 | Command i's four bytes land at `off + 4i`, and every byte outside the records is unchanged |
| WifiGateway.CommandsToPacket | Runtime/Source/Gateways/WiFiDeviceGateway.cs:201-213 | Bytes 0..3 decode to `Encode(OdorantCommands, (ushort)4n)`, bytes 4+4i..7+4i are command i's packet, and the stale tail is kept |
| WifiGateway.SendCommands | Runtime/Source/Gateways/WiFiDeviceGateway.cs:188-199 | With no device it sends nothing and returns false; otherwise it sends one datagram of exactly 4 + 4n bytes to the device and returns true |
| WifiGateway.SendCommandsDecodes | Runtime/Source/Gateways/WiFiDeviceGateway.cs:188-213 | For fewer than 16384 commands the datagram decodes, header checked, to exactly the held commands' packets |
| WifiGateway.BatchSizeWraps | Runtime/Source/Gateways/WiFiDeviceGateway.cs:204 | From 16384 commands the size field has wrapped, so the datagram no longer matches its header and is rejected |
| WifiGateway.CheckConnection | Runtime/Source/Gateways/WiFiDeviceGateway.cs:120-128 | Returns true iff at most 2000 ms have elapsed; on timeout the device is forgotten and nothing else changes |
| WifiGateway.OnDisconnect | Runtime/Source/Gateways/WiFiDeviceGateway.cs:239-245 | The device is forgotten, nothing else changes |
| WifiGateway.OnConnect | Runtime/Source/Gateways/WiFiDeviceGateway.cs:230-238 | The device becomes the endpoint and nothing else but the buffer changes; the buffer keeps its length and every byte past the header; once `Init` has run, one 4-byte datagram goes to the device |
| WifiGateway.OnConnectRequestsDebugMode | Runtime/Source/Gateways/WiFiDeviceGateway.cs:233-235 | That datagram is a valid DebugModeRequest header of size 0 that accounts for the whole datagram |
| WifiGateway.BeginConnect | Runtime/Source/Gateways/WiFiDeviceGateway.cs:102-118 | With no device, the request goes to 255.255.255.255 and then, for each local IPv4 address in order, to its broadcast under its own mask, all on port 4210; with a device, it goes to the device only |
| WifiGateway.Receive | Runtime/Source/Gateways/WiFiDeviceGateway.cs:247-277 | Datagrams shorter than a header are rejected, and a valid DeviceHostname frame is rejected iff it is shorter than its declared size; an invalid header changes nothing; hostname, request packet, buffer length and buffer bytes past the header are always kept; commands are never touched; a known device is never replaced; the endpoint changes only on a valid DeviceHostname frame naming the target, and any such frame (trailing bytes allowed) connects a gateway that knows no device; a valid DeviceDebugMode frame sets the debug flag from its fifth byte, fails iff that byte is missing, and is the only frame that changes the flag; the timer restarts at `now` on a whole DeviceHostname frame naming the target and on no other datagram; a hostname frame naming another device, and a valid frame of any other type, change nothing |
| WifiGateway.DebugModeFrameSetsFlag | Runtime/Source/Gateways/WiFiDeviceGateway.cs:273-276 | A valid DeviceDebugMode frame sets the flag exactly when the byte after the header is non-zero, sends nothing and changes nothing else |
| WifiGateway.DebugModeReplyHeader | Runtime/Source/Gateways/WiFiDeviceGateway.cs:273-276 | The device's answer `[header(DeviceDebugMode, 1), flag]` is a valid DeviceDebugMode frame whose fifth byte is the flag |
| WifiGateway.MatchingReplyConnects | Runtime/Source/Gateways/WiFiDeviceGateway.cs:256-265 | The target's own reply restarts the timer and connects to the sender if no device was known |
| WifiGateway.ForeignReplyIgnored | Runtime/Source/Gateways/WiFiDeviceGateway.cs:256-270 | A reply naming another device changes nothing |
| SerialGateway.Frame | Runtime/Source/Gateways/SerialDeviceGateway.cs:244-253 | The frame is 2 bytes longer than the payload and ends with the payload |
| SerialGateway.FrameRoundTrip | Runtime/Source/Gateways/SerialDeviceGateway.cs:244-253 | For payloads under 65536 bytes the big-endian prefix reads back as the length and the frame unframes to the payload |
| SerialGateway.LongFrameUnreadable | Runtime/Source/Gateways/SerialDeviceGateway.cs:246-248 | Past 65535 bytes the prefix has wrapped and the frame is unreadable |
| SerialGateway.StringBytes | Runtime/Source/Gateways/SerialDeviceGateway.cs:219-228 | One byte per character, each cast to `byte`; `StringBytesLatin1` shows characters below 256 survive and `StringBytesDropsHighBits` that others lose their high bits |
| SerialGateway.StringBytesLatin1 | Runtime/Source/Gateways/SerialDeviceGateway.cs:225-228 | Characters below 256 survive the byte cast |
| SerialGateway.HandshakeFrame | Runtime/Source/Gateways/SerialDeviceGateway.cs:219-228 | The version query goes out as `[0, 17]` followed by its 17 characters |
| SerialGateway.VersionReplyShape | Runtime/Source/Gateways/SerialDeviceGateway.cs:133-140 | A reply is accepted iff it is "OVR version" followed by at least one more character |
| SerialGateway.VersionReplyExamples | Runtime/Source/Gateways/SerialDeviceGateway.cs:133-140 | "OVR version 0.2.0" is accepted; a different case or a shorter line is not; the bare "OVR version" is not accepted and makes the cut throw |
| SerialGateway.StartsWithVersionShape | Runtime/Source/Gateways/SerialDeviceGateway.cs:139 | The evidently intended test accepts "OVR version" followed by anything, i.e. every accepted reply plus the bare prefix |
| SerialGateway.WriteFrame | Runtime/Source/Gateways/SerialDeviceGateway.cs:244-266 | The write succeeds iff the port is open and accepts it; success leaves the state alone and the wire unframes to the payload; failure closes the port |
| SerialGateway.WriteString | Runtime/Source/Gateways/SerialDeviceGateway.cs:219-242 | The same for a string, framed byte per character |
| SerialGateway.ReadReplies | Runtime/Source/Gateways/SerialDeviceGateway.cs:87-98 | The first deciding line settles it: a version reply gives true, an empty line false, an 11-character line the `Remove(11)` fault; if no line decides, the read blocks. Each outcome holds iff its line comes first |
| SerialGateway.CheckConnection | Runtime/Source/Gateways/SerialDeviceGateway.cs:76-99 | The "OVR Version Query" frame goes on the wire iff the port is open and takes the write; a closed port fails at once; a failed query write closes the port; on an open port that takes the query, it returns true iff a version reply is the first deciding line, false (port left open) iff an empty line is, a cut fault iff an 11-character line is, and a timeout iff none decides |
| SerialGateway.Connect | Runtime/Source/Gateways/SerialDeviceGateway.cs:101-147 | An open port is kept; otherwise the first decisive port settles it: one that accepts the handshake is left open, and one whose reply never comes, whose reply has exactly 11 characters, or whose `Open` throws something other than an IOException stops the scan with that fault; IOException ports and rejected replies are skipped |
| SerialGateway.ConnectCutsBarePrefix | Runtime/Source/Gateways/SerialDeviceGateway.cs:132-139 | A port replying exactly "OVR version" stops the scan with the cut fault, whatever ports follow |
| SerialGateway.PortInUseStopsScan | Runtime/Source/Gateways/SerialDeviceGateway.cs:117-124 | A port whose `Open` is refused ends the scan with a fault before a later port that would answer is tried |
| SerialGateway.Init | Runtime/Source/Gateways/SerialDeviceGateway.cs:149-156 | The buffer is 4·max + 3 zeroed bytes and "RunSerial" is written; a successful write leaves the port open and changes only the cap and buffer, a failed one closes the port and writes nothing |
| SerialGateway.AddCommand | Runtime/Source/Gateways/SerialDeviceGateway.cs:158-164 | A no-op at capacity, otherwise appends |
| SerialGateway.AddCommands | Runtime/Source/Gateways/SerialDeviceGateway.cs:165-168 | Appends the whole batch with no capacity check |
| SerialGateway.RemoveCommand | Runtime/Source/Gateways/SerialDeviceGateway.cs:169-172 | The list is `RemoveSlot` of the old one: every command for the slot is gone, the others are kept in order, and nothing else changes |
| SerialGateway.ClearCommands | Runtime/Source/Gateways/SerialDeviceGateway.cs:174-177 | Afterwards nothing is left to send |
| SerialGateway.HasCommandsToSend | Runtime/Source/Gateways/SerialDeviceGateway.cs:204-207 | Something to send iff at least one command is held |
| SerialGateway.SendCommands | Runtime/Source/Gateways/SerialDeviceGateway.cs:179-186 | The whole buffer, packed by `CommandsToBytes`, goes out as one frame; the send succeeds iff the port is open and takes the write, a failure closes the port, a success keeps it open and stores the rebuilt packet, and the held commands are kept |
| SerialGateway.CommandsToBytes | Runtime/Source/Gateways/SerialDeviceGateway.cs:188-202 | Byte 0 is the command type and byte 1 the count mod 256; bytes 2+3i..4+3i are slot, algorithm and intensity low byte; the rest is unchanged |
| SerialGateway.CommandsFitAfterInit | Runtime/Source/Gateways/SerialDeviceGateway.cs:149-153 | The 2 + 3n bytes written fit the buffer `Init` allocates whenever n ≤ max |
| SerialGateway.SendLengthFixed | Runtime/Source/Gateways/SerialDeviceGateway.cs:179-186 | After `Init`, a send puts 4·max + 5 bytes on the wire whatever the count |
| SerialGateway.CommandsToBytesDecodes | Runtime/Source/Gateways/SerialDeviceGateway.cs:188-202 | Under 256 commands the packet decodes back to their records |
| SerialGateway.CountWraps | Runtime/Source/Gateways/SerialDeviceGateway.cs:192 | With 256 commands the count byte reads 0 |
| Epithelium.MaxCommands | Runtime/Source/Components/OlfactoryEpithelium.cs:96 | The cap is 200000 div CapRechargeMicros, i.e. the largest m with m·CapRechargeMicros ≤ 200000; without a configuration it keeps its default of 9 |
| Epithelium.FindSlot | Runtime/Source/Components/OlfactoryEpithelium.cs:163 | The first index holding the slot, or none iff no command holds it |
| Epithelium.AddOdorantCommand | Runtime/Source/Components/OlfactoryEpithelium.cs:143-171 | Rejection (inactive, blacklisted, full, zero intensity) changes nothing; otherwise the command is appended, and on a duplicate only the first same-slot entry changes, to intensity ((a+b) div 2) mod 256; the cap is preserved |
| Epithelium.AddKeepsSlots | Runtime/Source/Components/OlfactoryEpithelium.cs:163-170 | An accepted command adds its slot at the end; no entry changes slot |
| Epithelium.DuplicateSlotMerges | Runtime/Source/Components/OlfactoryEpithelium.cs:163-170 | Two commands for one slot leave two entries: the mean, then the second |
| Epithelium.DuplicateSlotExample | Runtime/Source/Components/OlfactoryEpithelium.cs:163-170 | Intensities 100 then 50 for slot 2 leave 75 and 50 |
| Epithelium.AddAllBounded | Runtime/Source/Components/OlfactoryEpithelium.cs:157-160 | However many commands arrive, the list never exceeds the cap |
| Epithelium.MaintainDeviceConnection | Runtime/Source/Components/OlfactoryEpithelium.cs:232-274 | Not due: true and no change. Due: the gateway is created if missing, the datagrams are exactly its discovery requests, the verdict is true iff at most 2000 ms have passed on its timer, `Init` runs only when the gateway in use changes to it and then keeps the device, hostname, request packet and debug flag and a running timer, and a failed check leaves no gateway in use and the polled gateway with only its device forgotten (its timer keeps running) |
| Epithelium.FirstPollAdoptsWifi | Runtime/Source/Components/OlfactoryEpithelium.cs:256-270 | The first poll creates the UDP gateway, whose timer has not started, so the check passes and the gateway is taken into use with the cap; discovery goes to 255.255.255.255 and every local broadcast |
| Epithelium.Deliver | Runtime/Source/Components/OlfactoryEpithelium.cs:124-130 | Add, send if anything is held, clear: at most one datagram, sent exactly when a device is known and something is held, and the gateway is left empty with nothing but its commands and buffer changed |
| Epithelium.Update | Runtime/Source/Components/OlfactoryEpithelium.cs:110-137 | The frame's list is empty afterwards; the session is the one maintenance left, except for the aggregator's list and the gateway's commands and buffer; maintenance traffic comes first, then exactly what `Deliver` sends for the frame's commands when a gateway is in use, and nothing more otherwise; a failed connection sends no batch |
| Epithelium.DeliverSendsBatch | Runtime/Source/Components/OlfactoryEpithelium.cs:124-130 | A connected, empty gateway sends the frame's commands as one datagram that decodes back to them |
| Epithelium.UpdateSendsPending | Runtime/Source/Components/OlfactoryEpithelium.cs:110-131 | Between polls, a connected frame sends exactly one datagram to the device, carrying the frame's commands in order |
| Epithelium.PolledUpdateSendsPending | Runtime/Source/Components/OlfactoryEpithelium.cs:110-131 | On a poll that passes, the discovery requests are followed by exactly one datagram to the device, carrying the frame's commands in order |
| Epithelium.TimeoutPersists | Runtime/Source/Gateways/WiFiDeviceGateway.cs:120-128 | After a frame whose check timed out, the next polled frame at any later time fails again and sends only discovery, because the stopwatch is only restarted by a reply |
| Epithelium.ReceiveKeepsReady | Runtime/Source/Gateways/WiFiDeviceGateway.cs:247-277 | A datagram the gateway in use accepts keeps the session ready: buffer size and empty list are kept |
| Epithelium.FailedCheckSendsNoCommands | Runtime/Source/Components/OlfactoryEpithelium.cs:110-131 | When the check fails, only maintenance traffic is sent and no gateway is left in use |

## Left out

- Socket, UDP and serial-port I/O is not modelled. Its outcomes are inputs: whether a port opens, whether a write is delivered, and which lines come back.
- The DNS-based `Connect` of the UDP gateway and `GetLocalIP` are not modelled, because they only query the network stack.
- OS enumeration of interfaces and masks is not modelled; the interfaces come in as data.
- The asynchronous receive and its lock are not modelled. A receive is a sequential event applied to the gateway state.
- The .NET `Stopwatch` and Unity's `Time.deltaTime` float timers are replaced by integer milliseconds and a "due" flag.
- The on-screen odorant log (`updateOdorantMessageText`, `getGuiMessages`, `SetShouldDisplayOdorantMessages`) is float and display glue, so it is not modelled.
- The debug-mode display switch at the end of `Update` is display glue and is left out. The debug flag itself is modelled in `Receive`.
- The USB branch of `maintainDeviceConnection` is left out. It refers to fields that are not declared anywhere.
- Reference aliasing is not modelled: commands are values. A producer that reuses one command object is not covered.
- `Encoding.Default` is not modelled; hostnames are compared as byte sequences.
- Activation logging, `ToString`, `GatewayLabel` and `Dispose` have no effect on the wire, so they are left out.
- The serial data and error handlers are left out. The data handler calls `ReadExisting` on the same port while the handshake's `ReadLine` waits, so it can consume reply bytes. The `lines` input of `ReadReplies` and `CheckConnection` is what `ReadLine` sees after that race, so the race itself is not modelled.
- SerialGateway.StringBytes: a Dafny `char` is a Unicode scalar value, but the code casts UTF-16 code units. A character outside the Basic Multilingual Plane is two code units, so two bytes in the code but one byte in the model. Only ASCII literals reach this function.
- `IDeviceGateway` declares methods and has no behaviour of its own, so it is not modelled.
- `OdorantSphere`, `Multiton` and `OvrColorScheme` are outside the wire layer.
- Negative values of `maxCommandsPerPacket` and `CapRechargeMicros` are not modelled; the C# array allocation would throw on them.
- Epithelium.MaxCommands: requires a positive `CapRechargeMicros`, because for zero the code divides by zero and for a negative value it yields a negative cap.
- SerialGateway.Connect: the event-handler registration it performs on every call is not modelled, and the query bytes written to each candidate port are not returned.
- WifiGateway.SendCommands: `SendTo` on the socket is assumed to deliver the datagram. Socket exceptions are not modelled.
- Static fields are not modelled as shared. The UDP gateway's endpoint, connection timer, debug flag, header and connect callback are `static` (WiFiDeviceGateway.cs:53-68), and so is the serial port (SerialDeviceGateway.cs:50). The model keeps them in each gateway value, so `NewGateway`'s "no device known, timer not started" describes the first gateway of a process only; a later one would inherit the earlier state.
- Commands.OdorantCommand.WithIntensity: `Intensity` goes through `BitConverter`, which uses the host's byte order. The model fixes little-endian, the order of the x86 and ARM hosts the framework runs on; a big-endian host is not covered.

## Findings

The serial handshake guards the cut `read.Remove(11)` with a length test that lets an 11-character line through. `String.Remove(startIndex)` needs a start index inside the string, so that line throws `ArgumentOutOfRangeException`, and nothing catches it. The evidently intended test is "starts with `OVR version`". The rest of the model follows the code as written, because that is what a device link running it does; `StartsWithVersion` is the corrected test, kept beside it with its intended property proved.

| source | as written | input that shows it | evidently intended | confidence | as-written member | corrected member |
|---|---|---|---|---|---|---|
| Runtime/Source/Gateways/SerialDeviceGateway.cs:133-139 | skip lines shorter than 11, then compare `read.Remove(11)` with "OVR version" | a port whose first reply is exactly "OVR version" | accept every line starting with "OVR version", the bare prefix included | medium: relies on `Remove` rejecting a start index equal to the length, as the .NET Framework class library does; not executed | SerialGateway.ConnectCutsBarePrefix | SerialGateway.StartsWithVersionShape |
| Runtime/Source/Gateways/SerialDeviceGateway.cs:91-93 | for lines longer than 10, compare `read.Remove(11)` with "OVR version" | the reply lines ["OVR version"] | accept every line starting with "OVR version" | medium: same reliance on `Remove`; not executed | SerialGateway.ReadReplies | SerialGateway.StartsWithVersionShape |

=== FILE: bytes.dfy ===
/** Byte-level vocabulary shared by every wire format: the C# `byte` and
    `ushort` ranges, the narrowing casts, and little/big-endian 16-bit
    composition. */
module Bytes {

  type byte = b: int | 0 <= b < 256
  type uint16 = n: int | 0 <= n < 0x1_0000

  /** C# `(byte)x`: the low eight bits of a two's-complement int. Dafny's
      Euclidean `%` agrees with that for negative `x` as well. */
  function ByteOf(x: int): byte {
    x % 256
  }

  /** C# `(byte)(x >> 8)`: the arithmetic shift is floor division, which is
      Dafny's `/` for a positive divisor. */
  function HighByte(x: int): byte {
    (x / 256) % 256
  }

  /** The unsigned 16-bit value whose little-endian bytes are `lo, hi`. */
  function Le16(lo: byte, hi: byte): uint16 {
    hi * 256 + lo
  }

  /** Splitting a 16-bit value into its two bytes loses nothing. */
  lemma Le16OfBytes(n: uint16)
    ensures Le16(ByteOf(n), HighByte(n)) == n
  {
  }

  /** A freshly allocated C# `byte[n]`. */
  function Zeros(n: nat): (r: seq<byte>)
    ensures |r| == n
    ensures forall i :: 0 <= i < n ==> r[i] == 0
  {
    seq(n, _ => 0)
  }

  /** `Array.Copy(src, 0, buf, off, |src|)`: the window `off..off+|src|`
      takes the bytes of `src`, every other byte keeps its value. */
  function Overwrite(buf: seq<byte>, off: nat, src: seq<byte>): (r: seq<byte>)
    requires off + |src| <= |buf|
    ensures |r| == |buf|
    ensures forall i :: 0 <= i < |src| ==> r[off + i] == src[i]
    ensures forall i :: 0 <= i < |buf| && !(off <= i < off + |src|) ==> r[i] == buf[i]
  {
    buf[..off] + src + buf[off + |src|..]
  }

  /** Overwriting a window and reading the same window back yields `src`. */
  lemma OverwriteWindow(buf: seq<byte>, off: nat, src: seq<byte>)
    requires off + |src| <= |buf|
    ensures Overwrite(buf, off, src)[off..off + |src|] == src
  {
    var r := Overwrite(buf, off, src);
    assert forall i :: 0 <= i < |src| ==> r[off..off + |src|][i] == src[i];
  }

  /** The parts laid end to end. */
  function Concat(parts: seq<seq<byte>>): seq<byte>
    decreases |parts|
  {
    if |parts| == 0 then [] else parts[0] + Concat(parts[1..])
  }

  predicate Uniform(parts: seq<seq<byte>>, width: nat) {
    forall i :: 0 <= i < |parts| ==> |parts[i]| == width
  }

  lemma {:induction false} ConcatLength(parts: seq<seq<byte>>, width: nat)
    requires Uniform(parts, width)
    ensures |Concat(parts)| == width * |parts|
    decreases |parts|
  {
    if |parts| > 0 {
      ConcatLength(parts[1..], width);
      MulStep(width, |parts|);
    }
  }

  lemma MulStep(width: nat, n: nat)
    requires 0 < n
    ensures width * n == width + width * (n - 1)
  {
  }

  /** Byte `j` of part `i` sits at `width * i + j`. */
  lemma {:induction false} ConcatAt(parts: seq<seq<byte>>, width: nat, i: nat, j: nat)
    requires Uniform(parts, width)
    requires i < |parts| && j < width
    ensures width * i + j < |Concat(parts)|
    ensures Concat(parts)[width * i + j] == parts[i][j]
    decreases i
  {
    ConcatLength(parts, width);
    MulStep(width, |parts|);
    if i > 0 {
      var rest := parts[1..];
      ConcatAt(rest, width, i - 1, j);
      MulStep(width, i);
      assert rest[i - 1] == parts[i];
    }
  }
}

=== FILE: epithelium.dfy ===
/** The nose component: it aggregates the odorant commands the scene
    produces during a frame and, once per frame, keeps the device
    connection alive and hands the batch to the UDP gateway. The frame
    timer is abstracted to a "due" flag, the clock to milliseconds, and the
    network interfaces are an input. */
module Epithelium {
  import opened Bytes
  import opened Wrappers
  import opened Commands
  import Wifi = WifiGateway
  import Header
  import IpAddresses

  const DefaultMaxCommands: nat := 9
  /** The recharge budget the command cap is derived from, in microseconds. */
  const RechargeBudgetMicros: nat := 200000

  /** The cap: 9 without a configuration file, otherwise the budget divided
      by the configured capacitor recharge time. */
  function MaxCommands(capRechargeMicros: Option<int>): (m: nat)
    requires capRechargeMicros.Some? ==> capRechargeMicros.value > 0
    ensures capRechargeMicros.None? ==> m == DefaultMaxCommands
    ensures capRechargeMicros.Some? ==>
      m * capRechargeMicros.value <= RechargeBudgetMicros < m * capRechargeMicros.value + capRechargeMicros.value
  {
    match capRechargeMicros
    case None => DefaultMaxCommands
    case Some(d) =>
      var m := RechargeBudgetMicros / d;
      FloorDivBounds(RechargeBudgetMicros, d);
      m
  }

  /** The quotient is the largest multiplier that stays within `n`. */
  lemma FloorDivBounds(n: nat, d: int)
    requires d > 0
    ensures (n / d) * d <= n < (n / d) * d + d
  {
    var q, r := n / d, n % d;
    assert n == q * d + r && 0 <= r < d;
  }

  /** Slots and names whose commands are dropped. */
  datatype Blacklist = Blacklist(slots: set<byte>, names: set<string>)

  /** The per-frame command list and what it is filtered by. */
  datatype Aggregator = Aggregator(
    active: bool,                  // the static `IsActive` switch
    blacklist: Option<Blacklist>,
    maxCommands: nat,
    pending: seq<OdorantCommand>)

  predicate Blacklisted(b: Option<Blacklist>, c: OdorantCommand) {
    b.Some? && (c.Slot() in b.value.slots || c.name in b.value.names)
  }

  /** Whether `AddOdorantCommand` takes the command at all. */
  predicate Admits(a: Aggregator, c: OdorantCommand) {
    a.active && !Blacklisted(a.blacklist, c) && |a.pending| < a.maxCommands && c.Intensity() != 0
  }

  /** `FindIndex(c => c.Slot == slot)`: the first command for the slot. */
  function FindSlot(cs: seq<OdorantCommand>, slot: byte): (r: Option<nat>)
    ensures r.None? <==> forall j :: 0 <= j < |cs| ==> cs[j].Slot() != slot
    ensures r.Some? ==> r.value < |cs| && cs[r.value].Slot() == slot
    ensures r.Some? ==> forall j :: 0 <= j < r.value ==> cs[j].Slot() != slot
    decreases |cs|
  {
    if |cs| == 0 then None
    else if cs[0].Slot() == slot then Some(0)
    else match FindSlot(cs[1..], slot)
      case None => None
      case Some(i) => Some(i + 1)
  }

  /** `(byte)((a + b) / 2)`: the mean of two intensities, cast to `byte`. */
  function Mean(a: uint16, b: uint16): byte {
    ByteOf((a + b) / 2)
  }

  /** `AddOdorantCommand`. Contrary to its doc comment, a command for a slot
      already present is not dropped: the first command for that slot takes
      the mean of the two intensities, and the new command is appended
      anyway. */
  function AddOdorantCommand(a: Aggregator, c: OdorantCommand): (r: Aggregator)
    ensures !Admits(a, c) ==> r == a
    ensures r.(pending := a.pending) == a
    ensures Admits(a, c) ==>
      && |r.pending| == |a.pending| + 1
      && r.pending[|a.pending|] == c
    ensures Admits(a, c) && FindSlot(a.pending, c.Slot()).None? ==> r.pending == a.pending + [c]
    ensures Admits(a, c) && FindSlot(a.pending, c.Slot()).Some? ==>
      var i := FindSlot(a.pending, c.Slot()).value;
      && r.pending[i] == a.pending[i].WithIntensity(Mean(c.Intensity(), a.pending[i].Intensity()))
      && forall j :: 0 <= j < |a.pending| && j != i ==> r.pending[j] == a.pending[j]
    ensures |a.pending| <= a.maxCommands ==> |r.pending| <= r.maxCommands
  {
    if !a.active then a
    else if Blacklisted(a.blacklist, c) then a
    else if |a.pending| >= a.maxCommands || c.Intensity() == 0 then a
    else
      var merged := match FindSlot(a.pending, c.Slot())
        case None => a.pending
        case Some(i) =>
          a.pending[i := a.pending[i].WithIntensity(Mean(c.Intensity(), a.pending[i].Intensity()))];
      a.(pending := merged + [c])
  }

  function SlotsOf(cs: seq<OdorantCommand>): (r: seq<byte>)
    ensures |r| == |cs| && forall i :: 0 <= i < |cs| ==> r[i] == cs[i].Slot()
  {
    seq(|cs|, i requires 0 <= i < |cs| => cs[i].Slot())
  }

  /** Averaging never moves a command to another slot: the slots listed are
      the old ones followed by the new command's. */
  lemma AddKeepsSlots(a: Aggregator, c: OdorantCommand)
    requires Admits(a, c)
    ensures SlotsOf(AddOdorantCommand(a, c).pending) == SlotsOf(a.pending) + [c.Slot()]
  {
    var r := AddOdorantCommand(a, c);
    forall j | 0 <= j < |a.pending|
      ensures r.pending[j].Slot() == a.pending[j].Slot()
    {
      var f := FindSlot(a.pending, c.Slot());
      if f.Some? && j == f.value {
        assert r.pending[j] == a.pending[j].WithIntensity(Mean(c.Intensity(), a.pending[j].Intensity()));
      }
    }
  }

  /** Two commands for one slot, added to an empty list, leave two entries:
      the first at the mean intensity, then the second, unchanged. */
  lemma DuplicateSlotMerges(a: Aggregator, first: OdorantCommand, second: OdorantCommand)
    requires a.active && a.blacklist.None? && a.pending == [] && 2 <= a.maxCommands
    requires first.Slot() == second.Slot()
    requires first.Intensity() != 0 && second.Intensity() != 0
    ensures AddOdorantCommand(AddOdorantCommand(a, first), second).pending
      == [first.WithIntensity(Mean(second.Intensity(), first.Intensity())), second]
  {
    AddToEmpty(a, first);
    AddOntoSameSlot(AddOdorantCommand(a, first), first, second);
  }

  /** Intensities 100 and 50 for slot 2 leave 75 and then 50. */
  lemma DuplicateSlotExample(a: Aggregator, name: string, alg: byte)
    requires a.active && a.blacklist.None? && a.pending == [] && 2 <= a.maxCommands
    ensures var first := FromFields(name, 2, alg, 100);
      var second := FromFields(name, 2, alg, 50);
      AddOdorantCommand(AddOdorantCommand(a, first), second).pending
        == [FromFields(name, 2, alg, 75), second]
  {
    FieldsRoundTrip(name, 2, alg, 100);
    FieldsRoundTrip(name, 2, alg, 50);
    DuplicateSlotMerges(a, FromFields(name, 2, alg, 100), FromFields(name, 2, alg, 50));
    assert Mean(50, 100) == 75;
    SetIntensityOfFields(name, 2, alg, 100, 75);
  }

  lemma AddToEmpty(a: Aggregator, c: OdorantCommand)
    requires Admits(a, c) && a.pending == []
    ensures AddOdorantCommand(a, c).pending == [c]
  {
  }

  /** Onto a single command for the same slot: the mean, then the new one. */
  lemma AddOntoSameSlot(a: Aggregator, p: OdorantCommand, c: OdorantCommand)
    requires Admits(a, c) && a.pending == [p] && p.Slot() == c.Slot()
    ensures AddOdorantCommand(a, c).pending == [p.WithIntensity(Mean(c.Intensity(), p.Intensity())), c]
  {
    assert FindSlot(a.pending, c.Slot()) == Some(0);
    PairOf(AddOdorantCommand(a, c).pending);
  }

  lemma PairOf(s: seq<OdorantCommand>)
    requires |s| == 2
    ensures s == [s[0], s[1]]
  {
  }

  lemma SetIntensityOfFields(name: string, slot: byte, alg: byte, before: uint16, after: uint16)
    ensures FromFields(name, slot, alg, before).WithIntensity(after) == FromFields(name, slot, alg, after)
  {
  }

  /** Feeding commands one by one never overfills the list. */
  function AddAll(a: Aggregator, cs: seq<OdorantCommand>): Aggregator
    decreases |cs|
  {
    if |cs| == 0 then a else AddAll(AddOdorantCommand(a, cs[0]), cs[1..])
  }

  lemma {:induction false} AddAllBounded(a: Aggregator, cs: seq<OdorantCommand>)
    requires |a.pending| <= a.maxCommands
    ensures |AddAll(a, cs).pending| <= a.maxCommands
    ensures AddAll(a, cs).maxCommands == a.maxCommands
    decreases |cs|
  {
    if |cs| > 0 {
      AddAllBounded(AddOdorantCommand(a, cs[0]), cs[1..]);
    }
  }

  /** The frame-to-frame state: the aggregator, the UDP gateway once
      created, and whether it is the gateway in use. */
  datatype Session = Session(
    aggregator: Aggregator,
    hostname: seq<byte>,
    receivePort: uint16,
    wifi: Option<Wifi.WifiGateway>,
    gatewayActive: bool)

  /** A gateway `Init` has sized, holding no more commands than its cap. */
  predicate Sized(g: Wifi.WifiGateway) {
    |g.packet| == Header.HeaderSize + CommandSize * g.maxCommands && |g.commands| <= g.maxCommands
  }

  /** Between frames the UDP gateway holds no commands, and the gateway in
      use is the UDP gateway, sized by `Init`. */
  predicate Ready(s: Session) {
    && (s.wifi.Some? ==> s.wifi.value.commands == [])
    && (s.gatewayActive ==> s.wifi.Some? && Sized(s.wifi.value))
  }

  /** What a frame step did: the new session, the datagrams sent, and the
      connection verdict. */
  datatype Cycle = Cycle(session: Session, datagrams: seq<Wifi.Datagram>, connected: bool)

  /** The UDP gateway a poll works with: the one already created, or a new
      one for the preferred hostname. */
  function PolledGateway(s: Session): Wifi.WifiGateway {
    if s.wifi.Some? then s.wifi.value else Wifi.NewGateway(s.hostname, s.receivePort)
  }

  /** `maintainDeviceConnection` without the USB branch: between polls it
      reports success and does nothing; on a poll it creates the UDP gateway
      if needed, broadcasts discovery, checks the timeout, and calls `Init`
      only when the gateway in use changes to it. A failed check leaves no
      gateway in use. */
  function MaintainDeviceConnection(s: Session, due: bool, nics: seq<IpAddresses.NetworkInterface>, now: int): (r: Cycle)
    requires Ready(s)
    ensures Ready(r.session)
    ensures !due ==> r == Cycle(s, [], true)
    ensures r.session.aggregator == s.aggregator
    ensures due ==> r.session.wifi.Some?
    ensures due && !r.connected ==> !r.session.gatewayActive && !Wifi.IsConnected(r.session.wifi.value)
    ensures due && r.connected ==> r.session.gatewayActive
    ensures due && r.connected && s.gatewayActive ==> r.session.wifi == s.wifi
    ensures due && r.connected && !s.gatewayActive ==> r.session.wifi.value.maxCommands == s.aggregator.maxCommands
    ensures due ==> r.datagrams == Wifi.BeginConnect(PolledGateway(s), nics)
    ensures due ==> (r.connected <==> Wifi.Elapsed(PolledGateway(s).timer, now) <= Wifi.ConnectionTimeoutMs)
    ensures r.session.hostname == s.hostname && r.session.receivePort == s.receivePort
    ensures due && !r.connected ==> r.session.wifi == Some(Wifi.OnDisconnect(PolledGateway(s)))
    ensures due && r.connected && !s.gatewayActive ==>
      var w, a := PolledGateway(s), r.session.wifi.value;
      && a.(maxCommands := w.maxCommands, packet := w.packet, timer := w.timer) == w
      && (w.timer.RunningSince? ==> a.timer == w.timer)
  {
    if !due then Cycle(s, [], true)
    else
      var w := PolledGateway(s);
      var discovery := Wifi.BeginConnect(w, nics);
      var (checked, ok) := Wifi.CheckConnection(w, now);
      if ok then
        if s.gatewayActive then Cycle(s.(wifi := Some(checked)), discovery, true)
        else
          var ready := Wifi.Init(checked, s.aggregator.maxCommands, now);
          Cycle(s.(wifi := Some(ready), gatewayActive := true), discovery, true)
      else Cycle(s.(wifi := Some(checked), gatewayActive := false), discovery, false)
  }

  /** `after` differs from `before` at most in its commands and buffer. */
  predicate BufferOnly(before: Wifi.WifiGateway, after: Wifi.WifiGateway) {
    after.(commands := before.commands, packet := before.packet) == before
  }

  /** Hands the pending commands to a gateway: all-or-nothing add, a send
      only if anything is held, then a clear. */
  function Deliver(g: Wifi.WifiGateway, pending: seq<OdorantCommand>): (r: (Wifi.WifiGateway, seq<Wifi.Datagram>))
    requires Sized(g)
    ensures Sized(r.0) && r.0.commands == []
    ensures r.0.maxCommands == g.maxCommands && r.0.endpoint == g.endpoint && |r.0.packet| == |g.packet|
    ensures r.0.(commands := g.commands, packet := g.packet) == g
    ensures |r.1| <= 1
    ensures |r.1| == 1 <==>
      && g.endpoint.Some? && |g.commands| + |pending| > 0
      && (|pending| + |g.commands| <= g.maxCommands || |g.commands| > 0)
  {
    var added := Wifi.AddCommands(g, pending);
    if Wifi.HasCommandsToSend(added) then
      var (step, _) := Wifi.SendCommands(added);
      (Wifi.ClearCommands(step.gateway), step.datagrams)
    else (Wifi.ClearCommands(added), [])
  }

  /** `Update`: maintain the connection (a failure drops the frame's
      commands), deliver them through the gateway in use, and start the next
      frame with an empty list. */
  function Update(s: Session, due: bool, nics: seq<IpAddresses.NetworkInterface>, now: int): (r: Cycle)
    requires Ready(s)
    ensures Ready(r.session)
    ensures r.session.aggregator == s.aggregator.(pending := [])
    ensures var m := MaintainDeviceConnection(s, due, nics, now);
      && r.connected == m.connected
      && |m.datagrams| <= |r.datagrams| <= |m.datagrams| + 1
      && r.datagrams[..|m.datagrams|] == m.datagrams
      && (!r.connected ==> r.datagrams == m.datagrams)
      && r.session.(aggregator := m.session.aggregator, wifi := m.session.wifi) == m.session
      && (m.session.wifi.None? ==> r.session.wifi.None?)
      && (m.session.wifi.Some? ==> r.session.wifi.Some? && BufferOnly(m.session.wifi.value, r.session.wifi.value))
      && (m.session.gatewayActive ==> r.datagrams == m.datagrams + Deliver(m.session.wifi.value, s.aggregator.pending).1)
      && (!m.session.gatewayActive ==> r.datagrams == m.datagrams)
  {
    var m := MaintainDeviceConnection(s, due, nics, now);
    var pending := if m.connected then s.aggregator.pending else [];
    var t := m.session;
    if t.gatewayActive then
      var (g, sent) := Deliver(t.wifi.value, pending);
      Cycle(t.(wifi := Some(g), aggregator := t.aggregator.(pending := [])), m.datagrams + sent, m.connected)
    else Cycle(t.(aggregator := t.aggregator.(pending := [])), m.datagrams, m.connected)
  }

  /** A gateway that holds nothing and knows its device sends the frame's
      commands, when they fit, as one datagram that decodes back to them. */
  lemma DeliverSendsBatch(g: Wifi.WifiGateway, pending: seq<OdorantCommand>)
    requires Sized(g) && g.commands == [] && g.endpoint.Some?
    requires 0 < |pending| <= g.maxCommands && |pending| < 0x4000
    ensures var sent := Deliver(g, pending).1;
      && |sent| == 1 && sent[0].to == g.endpoint.value
      && Wifi.DecodeBatch(sent[0].payload) == Some(Wifi.PacketsOf(pending))
  {
    var added := Wifi.AddCommands(g, pending);
    assert added.commands == pending;
    Wifi.SendCommandsDecodes(added);
  }

  /** Between polls, a frame whose commands fit goes out as exactly one
      datagram to the device, carrying those commands in order. */
  lemma UpdateSendsPending(s: Session, nics: seq<IpAddresses.NetworkInterface>, now: int)
    requires Ready(s) && s.gatewayActive && s.wifi.value.endpoint.Some?
    requires 0 < |s.aggregator.pending| <= s.wifi.value.maxCommands
    requires |s.aggregator.pending| < 0x4000
    ensures var r := Update(s, false, nics, now);
      && |r.datagrams| == 1
      && r.datagrams[0].to == s.wifi.value.endpoint.value
      && Wifi.DecodeBatch(r.datagrams[0].payload) == Some(Wifi.PacketsOf(s.aggregator.pending))
  {
    DeliverSendsBatch(s.wifi.value, s.aggregator.pending);
  }

  /** A frame in which the connection check fails sends no commands: only
      the discovery requests go out, and no gateway is left in use. */
  lemma FailedCheckSendsNoCommands(s: Session, nics: seq<IpAddresses.NetworkInterface>, now: int)
    requires Ready(s)
    requires !MaintainDeviceConnection(s, true, nics, now).connected
    ensures var r := Update(s, true, nics, now);
      && r.datagrams == MaintainDeviceConnection(s, true, nics, now).datagrams
      && !r.session.gatewayActive
  {
  }

  /** The first poll creates the UDP gateway, whose timer has not started,
      so the check passes: the gateway is taken into use with the cap, and
      discovery goes to 255.255.255.255 and every local broadcast. */
  lemma FirstPollAdoptsWifi(s: Session, nics: seq<IpAddresses.NetworkInterface>, now: int)
    requires Ready(s) && s.wifi.None?
    ensures var r := MaintainDeviceConnection(s, true, nics, now);
      && r.connected && r.session.gatewayActive
      && r.session.wifi.value.maxCommands == s.aggregator.maxCommands
      && |r.datagrams| == 1 + |IpAddresses.LocalIpv4(nics)|
      && r.datagrams[0].to == Wifi.Endpoint(IpAddresses.LimitedBroadcast, Wifi.RemotePort)
  {
    assert PolledGateway(s).endpoint.None? && PolledGateway(s).timer.NotStarted?;
  }

  /** Once a poll has timed out, the stopwatch keeps running from the last
      reply, so with no receive in between every later frame fails its
      poll as well and sends no commands. */
  lemma TimeoutPersists(s: Session, nics: seq<IpAddresses.NetworkInterface>, nics2: seq<IpAddresses.NetworkInterface>,
                        now: int, later: int)
    requires Ready(s)
    requires !Update(s, true, nics, now).connected
    requires now <= later
    ensures var t := Update(s, true, nics, now).session;
      var r := Update(t, true, nics2, later);
      && !r.connected && !r.session.gatewayActive
      && r.datagrams == Wifi.BeginConnect(t.wifi.value, nics2)
  {
  }

  /** A poll that passes on the gateway already in use delivers the frame:
      after the discovery requests comes exactly one datagram to the device,
      carrying the frame's commands in order. */
  lemma PolledUpdateSendsPending(s: Session, nics: seq<IpAddresses.NetworkInterface>, now: int)
    requires Ready(s) && s.gatewayActive && s.wifi.value.endpoint.Some?
    requires 0 < |s.aggregator.pending| <= s.wifi.value.maxCommands
    requires |s.aggregator.pending| < 0x4000
    requires MaintainDeviceConnection(s, true, nics, now).connected
    ensures var m := MaintainDeviceConnection(s, true, nics, now);
      var r := Update(s, true, nics, now);
      && |r.datagrams| == |m.datagrams| + 1
      && r.datagrams[|m.datagrams|].to == s.wifi.value.endpoint.value
      && Wifi.DecodeBatch(r.datagrams[|m.datagrams|].payload) == Some(Wifi.PacketsOf(s.aggregator.pending))
  {
    var m := MaintainDeviceConnection(s, true, nics, now);
    assert m.session.wifi == s.wifi;
    DeliverSendsBatch(s.wifi.value, s.aggregator.pending);
  }

  /** A datagram the gateway in use accepts keeps the session ready: the
      buffer keeps its size and the list stays empty. */
  lemma ReceiveKeepsReady(s: Session, data: seq<byte>, from: Wifi.Endpoint, now: int)
    requires Ready(s) && s.wifi.Some?
    ensures var r := Wifi.Receive(s.wifi.value, data, from, now);
      r.Success? ==> Ready(s.(wifi := Some(r.value.gateway)))
  {
  }
}

=== FILE: header.dfy ===
/** The 4-byte frame header `[checksum, type, sizeLo, sizeHi]` that starts
    every UDP message. The checksum makes `checksum + type + size` a
    multiple of 251. */
module Header {
  import opened Bytes

  const HeaderSize: nat := 4
  const ChecksumModulus: nat := 251

  datatype MarshalHeader = MarshalHeader(checksum: byte, messageType: byte, messageSize: uint16)

  /** A header is trusted only when the checksum closes the sum to 0 mod 251. */
  predicate Valid(h: MarshalHeader) {
    (h.checksum + h.messageType + h.messageSize) % ChecksumModulus == 0
  }

  /** The whole message: the header followed by `messageSize` payload bytes. */
  function TotalMessageSize(h: MarshalHeader): nat {
    HeaderSize + h.messageSize
  }

  /** The header built for an outgoing message of the given type and size. */
  function Encode(messageType: byte, messageSize: uint16): (h: MarshalHeader)
    ensures h.messageType == messageType && h.messageSize == messageSize
    ensures 1 <= h.checksum <= 251
    ensures h.checksum == 251 <==> (messageType + messageSize) % ChecksumModulus == 0
    ensures Valid(h)
  {
    MarshalHeader(ChecksumModulus - (messageType + messageSize) % ChecksumModulus, messageType, messageSize)
  }

  /** The header laid out as bytes, size little-endian. */
  function ToBytes(h: MarshalHeader): (b: seq<byte>)
    ensures |b| == HeaderSize
  {
    [h.checksum, h.messageType, ByteOf(h.messageSize), HighByte(h.messageSize)]
  }

  /** Reads the four bytes at `offset`. Nothing is checked: the caller must
      test `Valid` before trusting the type or size. */
  function Decode(buffer: seq<byte>, offset: nat): MarshalHeader
    requires offset + HeaderSize <= |buffer|
  {
    MarshalHeader(buffer[offset], buffer[offset + 1], Le16(buffer[offset + 2], buffer[offset + 3]))
  }

  /** The static `Set(ref buffer, type, size)`: encodes into bytes 0..3 and
      leaves the rest of the buffer alone. */
  function WriteHeader(buffer: seq<byte>, messageType: byte, messageSize: uint16): (r: seq<byte>)
    requires HeaderSize <= |buffer|
    ensures |r| == |buffer|
    ensures r[HeaderSize..] == buffer[HeaderSize..]
    ensures forall k :: HeaderSize <= k < |r| ==> r[k] == buffer[k]
    ensures Decode(r, 0) == Encode(messageType, messageSize)
  {
    Le16OfBytes(messageSize);
    ToBytes(Encode(messageType, messageSize)) + buffer[HeaderSize..]
  }

  /** Decoding never fails; the bytes are valid exactly when their weighted
      sum is a multiple of 251, and otherwise the header is to be ignored. */
  lemma DecodeValidity(buffer: seq<byte>, offset: nat)
    requires offset + HeaderSize <= |buffer|
    ensures Valid(Decode(buffer, offset)) <==>
      (buffer[offset] + buffer[offset + 1] + buffer[offset + 2] + 256 * buffer[offset + 3]) % ChecksumModulus == 0
  {
  }

  /** Round trip the other way: re-encoding a decoded header gives back the
      four bytes it was read from. */
  lemma ToBytesDecode(buffer: seq<byte>, offset: nat)
    requires offset + HeaderSize <= |buffer|
    ensures ToBytes(Decode(buffer, offset)) == buffer[offset..offset + HeaderSize]
  {
  }

  /** Decoding looks at the four bytes at the offset and nothing else. */
  lemma DecodeSameBytes(a: seq<byte>, b: seq<byte>, offset: nat)
    requires offset + HeaderSize <= |a| && offset + HeaderSize <= |b|
    requires forall k :: offset <= k < offset + HeaderSize ==> a[k] == b[k]
    ensures Decode(a, offset) == Decode(b, offset)
  {
  }

  /** Decoding the bytes of a header gives that header back. */
  lemma DecodeToBytes(h: MarshalHeader)
    ensures Decode(ToBytes(h), 0) == h
  {
    Le16OfBytes(h.messageSize);
  }

  /** Round trip: decode after encode recovers the type and size and the
      result is valid. */
  lemma EncodeDecodeRoundTrip(messageType: byte, messageSize: uint16)
    ensures var h := Decode(ToBytes(Encode(messageType, messageSize)), 0);
      Valid(h) && h.messageType == messageType && h.messageSize == messageSize
  {
    DecodeToBytes(Encode(messageType, messageSize));
  }

  /** Among valid headers for a given type and size, `Encode` is the one
      whose checksum lies in 1..251. */
  lemma ValidHeaderIsEncoded(h: MarshalHeader)
    requires Valid(h) && 1 <= h.checksum <= 251
    ensures h == Encode(h.messageType, h.messageSize)
  {
    var s := h.messageType + h.messageSize;
    var e := Encode(h.messageType, h.messageSize);
    assert (e.checksum + s) % ChecksumModulus == 0;
    CongruentInRange(h.checksum, e.checksum, s);
  }

  lemma CongruentInRange(c: int, d: int, s: int)
    requires 1 <= c <= 251 && 1 <= d <= 251
    requires (c + s) % 251 == 0 && (d + s) % 251 == 0
    ensures c == d
  {
    var k := (c + s) / 251;
    var l := (d + s) / 251;
    assert c - d == 251 * (k - l);
  }

  /** Validity does not single out the encoded header: checksum 0 for a
      zero sum passes as well, so a decoder cannot tell the two apart. */
  lemma ZeroChecksumAlsoValid()
    ensures Valid(MarshalHeader(0, 0, 0))
    ensures MarshalHeader(0, 0, 0) != Encode(0, 0)
  {
  }

  /** The worked example: type 5, size 8 gets checksum 238. */
  lemma ExampleChecksum()
    ensures Encode(5, 8).checksum == 238
    ensures Valid(Decode(ToBytes(Encode(5, 8)), 0))
  {
    DecodeToBytes(Encode(5, 8));
  }
}

=== FILE: ip_address.dfy ===
/** Subnet broadcast addresses for UDP discovery: the subnet-directed
    broadcast of section 3.2.1.3 of RFC 1122, computed from each local IPv4
    address and its mask, after the limited broadcast 255.255.255.255.
    Interfaces and masks come in as data; nothing here asks the OS. */
module IpAddresses {
  import opened Bytes
  import opened Wrappers

  /** An address of either family; an IPv4 address is its 32 bits laid out
      as the platform stores them (first octet in the low byte). */
  datatype IpAddress = IPv4(bits: bv32) | IPv6(octets: seq<byte>)

  datatype AddressError =
    | NotIPv4        // an address or mask of another family
    | MaskNotFound   // no interface carries the address

  const AllOnes: bv32 := 0xFFFF_FFFF
  const LimitedBroadcast: bv32 := AllOnes

  function Ipv4FromOctets(a: byte, b: byte, c: byte, d: byte): bv32 {
    (a as bv32) | ((b as bv32) << 8) | ((c as bv32) << 16) | ((d as bv32) << 24)
  }

  /** `(address & mask) | (mask ^ 0xFFFFFFFF)`. */
  function Broadcast(address: bv32, mask: bv32): bv32 {
    (address & mask) | (mask ^ AllOnes)
  }

  /** The broadcast keeps the network bits and sets every host bit. */
  lemma BroadcastBits(address: bv32, mask: bv32)
    ensures Broadcast(address, mask) & mask == address & mask
    ensures Broadcast(address, mask) | mask == AllOnes
  {
  }

  lemma ComplementMask(mask: bv32)
    ensures mask ^ AllOnes == !mask
  {
  }

  lemma HostBitsSet(mask: bv32, x: bv32)
    requires x | mask == AllOnes
    ensures x & !mask == !mask
  {
  }

  lemma SplitByMask(mask: bv32, x: bv32)
    ensures x == (x & mask) | (x & !mask)
  {
  }

  /** Keeping the network bits and setting the host bits pins the broadcast
      address down: no other address has both properties. */
  lemma BroadcastUnique(address: bv32, mask: bv32, x: bv32)
    requires x & mask == address & mask
    requires x | mask == AllOnes
    ensures x == Broadcast(address, mask)
  {
    ComplementMask(mask);
    HostBitsSet(mask, x);
    SplitByMask(mask, x);
  }

  /** Broadcasting a broadcast address changes nothing. */
  lemma BroadcastIdempotent(address: bv32, mask: bv32)
    ensures Broadcast(Broadcast(address, mask), mask) == Broadcast(address, mask)
  {
  }

  /** 192.168.1.42 with mask 255.255.255.0 gives 192.168.1.255. */
  lemma BroadcastExample()
    ensures Broadcast(Ipv4FromOctets(192, 168, 1, 42), Ipv4FromOctets(255, 255, 255, 0))
         == Ipv4FromOctets(192, 168, 1, 255)
  {
  }

  /** `GetBroadcastAddress(address, mask)`: rejects any non-IPv4 operand. */
  function GetBroadcastAddressWithMask(address: IpAddress, mask: IpAddress): (r: Result<bv32, AddressError>)
    ensures r.Success? <==> address.IPv4? && mask.IPv4?
    ensures r.Failure? ==> r.error == NotIPv4
    ensures r.Success? ==> r.value & mask.bits == address.bits & mask.bits
    ensures r.Success? ==> r.value | mask.bits == AllOnes
  {
    if !address.IPv4? || !mask.IPv4? then Failure(NotIPv4)
    else Success(Broadcast(address.bits, mask.bits))
  }

  /** One unicast entry of an interface: the address and its IPv4 mask. */
  datatype UnicastAddress = UnicastAddress(address: IpAddress, ipv4Mask: bv32)

  datatype NetworkInterface = NetworkInterface(up: bool, unicast: seq<UnicastAddress>)

  function Ipv4Only(us: seq<UnicastAddress>): (r: seq<IpAddress>)
    ensures forall i :: 0 <= i < |r| ==> r[i].IPv4?
    ensures forall a :: a in r <==> a.IPv4? && exists j :: 0 <= j < |us| && us[j].address == a
    decreases |us|
  {
    if |us| == 0 then []
    else (if us[0].address.IPv4? then [us[0].address] else []) + Ipv4Only(us[1..])
  }

  ghost predicate Carries(nics: seq<NetworkInterface>, a: IpAddress) {
    exists i, j :: 0 <= i < |nics| && 0 <= j < |nics[i].unicast| && nics[i].unicast[j].address == a
  }

  /** Some interface that is up carries the address. */
  ghost predicate CarriesUp(nics: seq<NetworkInterface>, a: IpAddress) {
    exists i, j :: 0 <= i < |nics| && nics[i].up && 0 <= j < |nics[i].unicast| && nics[i].unicast[j].address == a
  }

  /** `GetAllLocalIPv4`: the IPv4 addresses of the interfaces that are up,
      interface by interface, in order. */
  function LocalIpv4(nics: seq<NetworkInterface>): (r: seq<IpAddress>)
    ensures forall i :: 0 <= i < |r| ==> r[i].IPv4?
    ensures forall a :: a in r ==> Carries(nics, a)
    decreases |nics|
  {
    if |nics| == 0 then []
    else
      var rest := LocalIpv4(nics[1..]);
      assert forall a :: a in rest ==> Carries(nics, a) by {
        forall a | a in rest ensures Carries(nics, a) {
          var i, j :| 0 <= i < |nics[1..]| && 0 <= j < |nics[1..][i].unicast| && nics[1..][i].unicast[j].address == a;
          assert nics[i + 1].unicast[j].address == a;
        }
      }
      (if nics[0].up then Ipv4Only(nics[0].unicast) else []) + rest
  }

  /** Exactly the IPv4 addresses of the interfaces that are up are listed:
      no address of a down interface, and none missing. */
  lemma {:induction false} LocalIpv4Members(nics: seq<NetworkInterface>, a: IpAddress)
    ensures a in LocalIpv4(nics) <==> a.IPv4? && CarriesUp(nics, a)
    decreases |nics|
  {
    if |nics| > 0 {
      LocalIpv4Members(nics[1..], a);
      var own := if nics[0].up then Ipv4Only(nics[0].unicast) else [];
      assert LocalIpv4(nics) == own + LocalIpv4(nics[1..]);
      if a in LocalIpv4(nics[1..]) {
        var i, j :| 0 <= i < |nics[1..]| && nics[1..][i].up && 0 <= j < |nics[1..][i].unicast| && nics[1..][i].unicast[j].address == a;
        assert nics[i + 1].up && nics[i + 1].unicast[j].address == a;
      }
      if a.IPv4? && CarriesUp(nics, a) {
        var i, j :| 0 <= i < |nics| && nics[i].up && 0 <= j < |nics[i].unicast| && nics[i].unicast[j].address == a;
        if i > 0 {
          assert nics[1..][i - 1].up && nics[1..][i - 1].unicast[j].address == a;
        }
      }
    }
  }

  /** The list keeps interface order: listing two groups of interfaces
      together lists the first group's addresses, then the second's. */
  lemma {:induction false} LocalIpv4Append(first: seq<NetworkInterface>, second: seq<NetworkInterface>)
    ensures LocalIpv4(first + second) == LocalIpv4(first) + LocalIpv4(second)
    decreases |first|
  {
    if |first| == 0 {
      assert first + second == second;
    } else {
      var both := first + second;
      assert both[0] == first[0];
      assert both[1..] == first[1..] + second;
      LocalIpv4Append(first[1..], second);
    }
  }

  /** One interface contributes its IPv4 addresses in order if it is up,
      and nothing otherwise. */
  lemma LocalIpv4Single(nic: NetworkInterface)
    ensures LocalIpv4([nic]) == if nic.up then Ipv4Only(nic.unicast) else []
  {
    assert [nic][1..] == [];
  }

  /** Entry `j` is the first one carrying the address. */
  predicate FirstCarrier(us: seq<UnicastAddress>, address: IpAddress, j: int) {
    0 <= j < |us| && us[j].address == address && forall k :: 0 <= k < j ==> us[k].address != address
  }

  /** The first entry carrying the address, if it is IPv4, gives the mask. */
  function FindMask(us: seq<UnicastAddress>, address: IpAddress): (r: Option<bv32>)
    ensures r.Some? <==> address.IPv4? && exists j :: 0 <= j < |us| && us[j].address == address
    ensures r.Some? ==> exists j :: FirstCarrier(us, address, j) && us[j].ipv4Mask == r.value
    decreases |us|
  {
    if |us| == 0 then None
    else if us[0].address.IPv4? && us[0].address == address then
      assert FirstCarrier(us, address, 0);
      Some(us[0].ipv4Mask)
    else
      var r := FindMask(us[1..], address);
      assert r.Some? ==> exists j :: FirstCarrier(us, address, j) && us[j].ipv4Mask == r.value by {
        if r.Some? {
          var j :| FirstCarrier(us[1..], address, j) && us[1..][j].ipv4Mask == r.value;
          assert us[j + 1] == us[1..][j];
          forall k | 0 <= k < j + 1 ensures us[k].address != address {
            if k > 0 {
              assert us[k] == us[1..][k - 1];
            }
          }
          assert FirstCarrier(us, address, j + 1);
        }
      }
      r
  }

  /** Every unicast entry of every interface, interface by interface. */
  function Unicasts(nics: seq<NetworkInterface>): seq<UnicastAddress>
    decreases |nics|
  {
    if |nics| == 0 then [] else nics[0].unicast + Unicasts(nics[1..])
  }

  /** Searching two lists in turn is searching their concatenation. */
  lemma {:induction false} FindMaskAppend(a: seq<UnicastAddress>, b: seq<UnicastAddress>, address: IpAddress)
    ensures FindMask(a + b, address) == if FindMask(a, address).Some? then FindMask(a, address) else FindMask(b, address)
    decreases |a|
  {
    if |a| == 0 {
      assert a + b == b;
    } else {
      assert (a + b)[0] == a[0];
      assert (a + b)[1..] == a[1..] + b;
      FindMaskAppend(a[1..], b, address);
    }
  }

  /** `GetSubnetMask`: the mask of the first entry, on any interface whether
      up or not, that carries the address: the same answer as one search
      over all entries in interface order. */
  function GetSubnetMask(nics: seq<NetworkInterface>, address: IpAddress): (r: Result<bv32, AddressError>)
    ensures r.Success? <==> address.IPv4? && Carries(nics, address)
    ensures r.Failure? ==> r.error == MaskNotFound
    ensures r.Success? <==> FindMask(Unicasts(nics), address).Some?
    ensures r.Success? ==> FindMask(Unicasts(nics), address) == Some(r.value)
    decreases |nics|
  {
    if |nics| == 0 then Failure(MaskNotFound)
    else
      FindMaskAppend(nics[0].unicast, Unicasts(nics[1..]), address);
      match FindMask(nics[0].unicast, address)
      case Some(m) => Success(m)
      case None =>
        var r := GetSubnetMask(nics[1..], address);
        assert Carries(nics, address) <==>
          (exists j :: 0 <= j < |nics[0].unicast| && nics[0].unicast[j].address == address)
          || Carries(nics[1..], address) by {
          if Carries(nics, address) {
            var i, j :| 0 <= i < |nics| && 0 <= j < |nics[i].unicast| && nics[i].unicast[j].address == address;
            if i > 0 {
              assert nics[1..][i - 1].unicast[j].address == address;
            }
          }
          if Carries(nics[1..], address) {
            var i, j :| 0 <= i < |nics[1..]| && 0 <= j < |nics[1..][i].unicast| && nics[1..][i].unicast[j].address == address;
            assert nics[i + 1].unicast[j].address == address;
          }
        }
        r
  }

  /** `GetBroadcastAddress(address)`: the broadcast under the address's own
      mask, looked up among the interfaces. */
  function GetBroadcastAddress(nics: seq<NetworkInterface>, address: IpAddress): (r: Result<bv32, AddressError>)
    ensures r.Success? <==> address.IPv4? && Carries(nics, address)
    ensures !address.IPv4? ==> r == Failure(NotIPv4)
    ensures r.Success? ==> r == Success(Broadcast(address.bits, GetSubnetMask(nics, address).value))
  {
    if !address.IPv4? then Failure(NotIPv4)
    else
      var mask :- GetSubnetMask(nics, address);
      Success(Broadcast(address.bits, mask))
  }

  function BroadcastsOf(nics: seq<NetworkInterface>, addresses: seq<IpAddress>): Result<seq<bv32>, AddressError>
    decreases |addresses|
  {
    if |addresses| == 0 then Success([])
    else
      var b :- GetBroadcastAddress(nics, addresses[0]);
      var rest :- BroadcastsOf(nics, addresses[1..]);
      Success([b] + rest)
  }

  /** `GetBroadcastAddresses`: the limited broadcast, then one broadcast per
      local IPv4 address. */
  function GetBroadcastAddresses(nics: seq<NetworkInterface>): Result<seq<bv32>, AddressError> {
    var bs :- BroadcastsOf(nics, LocalIpv4(nics));
    Success([LimitedBroadcast] + bs)
  }

  lemma {:induction false} BroadcastsOfCarried(nics: seq<NetworkInterface>, addresses: seq<IpAddress>)
    requires forall a :: a in addresses ==> a.IPv4? && Carries(nics, a)
    ensures var r := BroadcastsOf(nics, addresses);
      && r.Success? && |r.value| == |addresses|
      && forall i :: 0 <= i < |addresses| ==>
           r.value[i] == Broadcast(addresses[i].bits, GetSubnetMask(nics, addresses[i]).value)
    decreases |addresses|
  {
    if |addresses| > 0 {
      assert addresses[0] in addresses;
      BroadcastsOfCarried(nics, addresses[1..]);
      var rest := BroadcastsOf(nics, addresses[1..]).value;
      var r := BroadcastsOf(nics, addresses).value;
      forall i | 1 <= i < |addresses|
        ensures r[i] == Broadcast(addresses[i].bits, GetSubnetMask(nics, addresses[i]).value)
      {
        assert r[i] == rest[i - 1];
        assert addresses[1..][i - 1] == addresses[i];
      }
    }
  }

  /** The list never fails: it starts with 255.255.255.255 and then holds,
      for each local IPv4 address in order, that address's broadcast. */
  lemma BroadcastListShape(nics: seq<NetworkInterface>)
    ensures var r := GetBroadcastAddresses(nics);
      var locals := LocalIpv4(nics);
      && r.Success? && |r.value| == 1 + |locals|
      && r.value[0] == LimitedBroadcast
      && forall i :: 0 <= i < |locals| ==>
           r.value[i + 1] == Broadcast(locals[i].bits, GetSubnetMask(nics, locals[i]).value)
  {
    var locals := LocalIpv4(nics);
    BroadcastsOfCarried(nics, locals);
    var bs := BroadcastsOf(nics, locals).value;
    assert GetBroadcastAddresses(nics).value == [LimitedBroadcast] + bs;
    forall i | 0 <= i < |locals|
      ensures GetBroadcastAddresses(nics).value[i + 1] == Broadcast(locals[i].bits, GetSubnetMask(nics, locals[i]).value)
    {
      assert ([LimitedBroadcast] + bs)[i + 1] == bs[i];
    }
  }
}

=== FILE: message_types.dfy ===
/** The message-type codes carried on the wire. The numeric values of the
    device's closed enumeration are not part of this model; the constants
    below are placeholders, and every proof relies only on their being
    pairwise distinct. */
module MessageTypes {
  import opened Bytes

  // UDP frame-header message types
  const HostnameRequest: byte := 1
  const DeviceHostname: byte := 2
  const DebugModeRequest: byte := 3
  const DeviceDebugMode: byte := 4
  const OdorantCommands: byte := 5

  // first byte of a serial command packet
  const SerialOdorantCommand: byte := 6
}

=== FILE: odorant_command.dfy ===
/** One odorant command. Its fields live in a 4-byte buffer that is also
    its wire form: `[slot, algorithm, intensityLo, intensityHi]`. */
module Commands {
  import opened Bytes
  import Text

  const CommandSize: nat := 4

  /** The backing buffer; it always holds exactly four bytes. */
  type Packet = s: seq<byte> | |s| == CommandSize witness [0, 0, 0, 0]

  /** Rendering modes. Their byte codes are placeholders, only distinct. */
  datatype OdorantAlgorithm = Burst | Ambient

  function AlgorithmCode(a: OdorantAlgorithm): byte {
    match a
    case Burst => 0
    case Ambient => 1
  }

  /** The static configuration a command is built from. */
  datatype OdorantConfig = OdorantConfig(name: string, slot: byte)

  datatype OdorantCommand = OdorantCommand(name: string, packet: Packet) {

    function Slot(): byte {
      packet[0]
    }

    function Algorithm(): byte {
      packet[1]
    }

    /** Little-endian 16-bit value of bytes 2..3. */
    function Intensity(): uint16 {
      Le16(packet[2], packet[3])
    }

    /** Writes byte 0 only. */
    function WithSlot(slot: byte): (r: OdorantCommand)
      ensures r.Slot() == slot
      ensures r.Algorithm() == Algorithm() && r.Intensity() == Intensity()
      ensures r.name == name
      ensures forall i :: 1 <= i < CommandSize ==> r.packet[i] == packet[i]
    {
      this.(packet := packet[0 := slot])
    }

    /** Writes byte 1 only. */
    function WithAlgorithm(algorithm: byte): (r: OdorantCommand)
      ensures r.Algorithm() == algorithm
      ensures r.Slot() == Slot() && r.Intensity() == Intensity()
      ensures r.name == name
      ensures forall i :: 0 <= i < CommandSize && i != 1 ==> r.packet[i] == packet[i]
    {
      this.(packet := packet[1 := algorithm])
    }

    /** Writes bytes 2..3 as a little-endian 16-bit value. */
    function WithIntensity(intensity: uint16): (r: OdorantCommand)
      ensures r.Intensity() == intensity
      ensures r.Slot() == Slot() && r.Algorithm() == Algorithm()
      ensures r.name == name
      ensures r.packet[0] == packet[0] && r.packet[1] == packet[1]
    {
      Le16OfBytes(intensity);
      this.(packet := [packet[0], packet[1], ByteOf(intensity), HighByte(intensity)])
    }
  }

  /** The four bytes a command contributes to a UDP batch. */
  function GetPacket(c: OdorantCommand): (p: Packet)
    ensures p == [c.Slot(), c.Algorithm(), ByteOf(c.Intensity()), HighByte(c.Intensity())]
  {
    Le16OfBytes(c.Intensity());
    c.packet
  }

  /** A command reconstructed from its three fields. */
  function FromFields(name: string, slot: byte, algorithm: byte, intensity: uint16): OdorantCommand {
    OdorantCommand(name, [slot, algorithm, ByteOf(intensity), HighByte(intensity)])
  }

  /** The packet determines the fields and the fields determine the packet. */
  lemma PacketRoundTrip(c: OdorantCommand)
    ensures FromFields(c.name, c.Slot(), c.Algorithm(), c.Intensity()) == c
  {
    Le16OfBytes(c.Intensity());
  }

  lemma FieldsRoundTrip(name: string, slot: byte, algorithm: byte, intensity: uint16)
    ensures var c := FromFields(name, slot, algorithm, intensity);
      c.Slot() == slot && c.Algorithm() == algorithm && c.Intensity() == intensity
  {
    Le16OfBytes(intensity);
  }

  /** Constructor: name and slot from the config, the algorithm's code, and
      an intensity that defaults to 0. */
  function NewCommand(config: OdorantConfig, algorithm: OdorantAlgorithm, intensity: byte := 0): (c: OdorantCommand)
    ensures c.name == config.name && c.Slot() == config.slot
    ensures c.Algorithm() == AlgorithmCode(algorithm)
    ensures c.Intensity() == intensity
  {
    OdorantCommand(config.name, [0, 0, 0, 0])
      .WithSlot(config.slot)
      .WithAlgorithm(AlgorithmCode(algorithm))
      .WithIntensity(intensity)
  }

  /** The algorithm column of the CSV log: anything but the Ambient code
      prints as Burst. */
  function AlgorithmLabel(algorithm: byte): (s: string)
    ensures s == "Ambient" <==> algorithm == AlgorithmCode(Ambient)
    ensures s != "Ambient" ==> s == "Burst"
  {
    if algorithm == AlgorithmCode(Ambient) then "Ambient" else "Burst"
  }

  /** `name,slot+1,algorithm,intensity`. */
  function ToCsv(c: OdorantCommand): string {
    Text.JoinFields([c.name, Text.NatToDecimal(c.Slot() + 1), AlgorithmLabel(c.Algorithm()),
                     Text.NatToDecimal(c.Intensity())])
  }

  /** A CSV line reads back: when the name holds no comma, the second field
      is the one-based slot, the third the algorithm label and the fourth the
      intensity. */
  lemma CsvFieldsReadBack(c: OdorantCommand)
    requires Text.NoComma(c.name)
    ensures var f := Text.SplitFields(ToCsv(c));
      && |f| == 4 && f[0] == c.name
      && Text.AllDigits(f[1]) && Text.ParseDecimal(f[1]) == c.Slot() + 1
      && (f[2] == "Ambient" <==> c.Algorithm() == AlgorithmCode(Ambient))
      && (f[2] == "Burst" <==> c.Algorithm() != AlgorithmCode(Ambient))
      && Text.AllDigits(f[3]) && Text.ParseDecimal(f[3]) == c.Intensity()
  {
    var fields := [c.name, Text.NatToDecimal(c.Slot() + 1), AlgorithmLabel(c.Algorithm()),
                   Text.NatToDecimal(c.Intensity())];
    Text.DigitsHaveNoComma(fields[1]);
    Text.DigitsHaveNoComma(fields[3]);
    assert Text.NoComma(fields[2]);
    Text.SplitJoin(fields);
    Text.DecimalRoundTrip(c.Slot() + 1);
    Text.DecimalRoundTrip(c.Intensity());
  }

  /** `RemoveAll(c => c.Slot == slot)`: drops every command for the slot and
      keeps the others in order. */
  function RemoveSlot(cs: seq<OdorantCommand>, slot: byte): (r: seq<OdorantCommand>)
    ensures |r| <= |cs|
    ensures forall i :: 0 <= i < |r| ==> r[i].Slot() != slot
    ensures forall c :: c in r <==> c in cs && c.Slot() != slot
    decreases |cs|
  {
    if |cs| == 0 then []
    else if cs[0].Slot() == slot then RemoveSlot(cs[1..], slot)
    else [cs[0]] + RemoveSlot(cs[1..], slot)
  }

  /** Removal distributes over concatenation, which together with its effect
      on a single command fixes it as an order-preserving filter. */
  lemma {:induction false} RemoveSlotAppend(a: seq<OdorantCommand>, b: seq<OdorantCommand>, slot: byte)
    ensures RemoveSlot(a + b, slot) == RemoveSlot(a, slot) + RemoveSlot(b, slot)
    decreases |a|
  {
    if |a| == 0 {
      assert a + b == b;
    } else {
      assert (a + b)[1..] == a[1..] + b;
      RemoveSlotAppend(a[1..], b, slot);
    }
  }

  lemma RemoveSlotSingle(c: OdorantCommand, slot: byte)
    ensures RemoveSlot([c], slot) == if c.Slot() == slot then [] else [c]
  {
  }

  /** Removing a slot twice is the same as removing it once. */
  lemma {:induction false} RemoveSlotIdempotent(cs: seq<OdorantCommand>, slot: byte)
    ensures RemoveSlot(RemoveSlot(cs, slot), slot) == RemoveSlot(cs, slot)
    decreases |cs|
  {
    if |cs| > 0 {
      RemoveSlotIdempotent(cs[1..], slot);
      if cs[0].Slot() != slot {
        var rest := RemoveSlot(cs[1..], slot);
        assert ([cs[0]] + rest)[1..] == rest;
      }
    }
  }
}

=== FILE: serial_gateway.dfy ===
/** The USB transport: every write is a frame with a two-byte big-endian
    length prefix, the device is found by a version handshake, and commands
    go out as one `[type, count, (slot, algorithm, intensity)*]` packet.
    The serial port is not modelled: whether a port opens, whether a write
    goes through and which lines the device answers with are inputs, and
    each write reports the bytes it put on the wire. */
module SerialGateway {
  import opened Bytes
  import opened Wrappers
  import opened Commands
  import opened MessageTypes

  const LengthPrefixSize: nat := 2
  const SerialRecordSize: nat := 3
  /** Bytes before the first record: the type and the count. */
  const SerialPacketHeader: nat := 2

  const VersionQuery: string := "OVR Version Query"
  const VersionPrefix: string := "OVR version"
  const RunSerial: string := "RunSerial"

  /** The unsigned 16-bit value whose big-endian bytes are `hi, lo`. */
  function Be16(hi: byte, lo: byte): uint16 {
    Le16(lo, hi)
  }

  /** `writeBytes` framing: `[len >> 8, len & 0xFF]` then the payload. Both
      prefix bytes are C# `byte` casts, so a length past 65535 wraps. */
  function Frame(payload: seq<byte>): (f: seq<byte>)
    ensures |f| == LengthPrefixSize + |payload|
    ensures f[LengthPrefixSize..] == payload
  {
    [HighByte(|payload|), ByteOf(|payload|)] + payload
  }

  /** How the device reads a frame: the prefix must account for exactly the
      bytes that follow it. */
  function Unframe(wire: seq<byte>): (r: Option<seq<byte>>)
    ensures r.Some? ==> LengthPrefixSize + |r.value| == |wire|
  {
    if |wire| < LengthPrefixSize || Be16(wire[0], wire[1]) != |wire| - LengthPrefixSize then None
    else Some(wire[LengthPrefixSize..])
  }

  /** Every frame of fewer than 65536 bytes reads back as its payload. */
  lemma FrameRoundTrip(payload: seq<byte>)
    requires |payload| < 0x1_0000
    ensures Unframe(Frame(payload)) == Some(payload)
  {
    Le16OfBytes(|payload|);
  }

  /** A longer payload does not fit the prefix: the frame is unreadable. */
  lemma LongFrameUnreadable(payload: seq<byte>)
    requires 0x1_0000 <= |payload|
    ensures Unframe(Frame(payload)).None?
  {
  }

  /** `writeString`: each character is cast to `byte`, keeping its low bits. */
  function StringBytes(s: string): (bs: seq<byte>)
    ensures |bs| == |s|
  {
    seq(|s|, i requires 0 <= i < |s| => ByteOf(s[i] as int))
  }

  /** Bytes read back one character per byte. */
  function Latin1(bs: seq<byte>): (s: string)
    ensures |s| == |bs|
  {
    seq(|bs|, i requires 0 <= i < |bs| => bs[i] as char)
  }

  predicate NarrowChars(s: string) {
    forall i :: 0 <= i < |s| ==> (s[i] as int) < 256
  }

  /** No character below 256 is altered by the cast. */
  lemma StringBytesLatin1(s: string)
    requires NarrowChars(s)
    ensures Latin1(StringBytes(s)) == s
  {
  }

  /** The cast drops the high bits: two strings differing only above bit 7
      go out as the same bytes. */
  lemma StringBytesDropsHighBits()
    ensures StringBytes([0x141 as char]) == StringBytes(['A'])
  {
  }

  /** The handshake query goes out as `[0, 17]` and then its 17 characters. */
  lemma HandshakeFrame()
    ensures var f := Frame(StringBytes(VersionQuery));
      && f[..LengthPrefixSize] == [0, 17]
      && Latin1(f[LengthPrefixSize..]) == VersionQuery
  {
    StringBytesLatin1(VersionQuery);
  }

  /** A handshake reply is accepted iff it is longer than 11 characters and
      the first 11 are "OVR version" (case-sensitive). The code cuts the line
      with `Remove(11)`, which needs a start index inside the line. */
  predicate IsVersionReply(line: string) {
    |line| > |VersionPrefix| && line[..|VersionPrefix|] == VersionPrefix
  }

  /** A line of exactly 11 characters passes the length guards, and then
      `Remove(11)` throws `ArgumentOutOfRangeException`. */
  predicate CutThrows(line: string) {
    |line| == |VersionPrefix|
  }

  lemma VersionReplyShape(line: string)
    ensures IsVersionReply(line) <==> exists rest: string :: rest != [] && line == VersionPrefix + rest
  {
    if IsVersionReply(line) {
      assert line == VersionPrefix + line[|VersionPrefix|..];
    }
    if exists rest: string :: rest != [] && line == VersionPrefix + rest {
      var rest: string :| rest != [] && line == VersionPrefix + rest;
      assert line[..|VersionPrefix|] == VersionPrefix;
    }
  }

  lemma VersionReplyExamples()
    ensures IsVersionReply("OVR version 0.2.0")
    ensures !IsVersionReply("OVR Version 0.2.0")
    ensures !IsVersionReply("OVR versio")
    ensures !IsVersionReply(VersionPrefix) && CutThrows(VersionPrefix)
  {
    assert "OVR version 0.2.0"[..11] == VersionPrefix;
    assert "OVR Version 0.2.0"[4] != VersionPrefix[4];
  }

  /** What the guard evidently means: the line starts with "OVR version",
      the bare prefix included, and no line makes the check throw. */
  predicate StartsWithVersion(line: string) {
    |line| >= |VersionPrefix| && line[..|VersionPrefix|] == VersionPrefix
  }

  lemma StartsWithVersionShape(line: string)
    ensures StartsWithVersion(line) <==> exists rest: string :: line == VersionPrefix + rest
    ensures StartsWithVersion(line) <==> IsVersionReply(line) || line == VersionPrefix
  {
    if StartsWithVersion(line) {
      assert line == VersionPrefix + line[|VersionPrefix|..];
    }
    if exists rest: string :: line == VersionPrefix + rest {
      var rest: string :| line == VersionPrefix + rest;
      assert line[..|VersionPrefix|] == VersionPrefix;
    }
  }

  datatype SerialGateway = SerialGateway(
    port: Option<string>,          // the open port's name; None when closed
    commands: seq<OdorantCommand>,
    maxCommands: nat,
    packet: seq<byte>)             // outgoing buffer; empty until Init

  predicate IsOpen(g: SerialGateway) {
    g.port.Some?
  }

  function Close(g: SerialGateway): (r: SerialGateway)
    ensures !IsOpen(r)
    ensures r.(port := g.port) == g
  {
    g.(port := None)
  }

  /** One write: the new state, the bytes on the wire, and the verdict. */
  datatype WriteOutcome = WriteOutcome(gateway: SerialGateway, wire: seq<byte>, ok: bool)

  /** `writeBytes`: a write succeeds only on an open port that accepts it
      (`delivered`); any failure closes the port and reports false. */
  function WriteFrame(g: SerialGateway, payload: seq<byte>, delivered: bool): (r: WriteOutcome)
    ensures r.ok <==> IsOpen(g) && delivered
    ensures r.ok ==> r.gateway == g && Unframe(r.wire) == (if |payload| < 0x1_0000 then Some(payload) else None)
    ensures !r.ok ==> r.gateway == Close(g) && r.wire == []
  {
    if IsOpen(g) && delivered then
      if |payload| < 0x1_0000 then FrameRoundTrip(payload); WriteOutcome(g, Frame(payload), true)
      else LongFrameUnreadable(payload); WriteOutcome(g, Frame(payload), true)
    else WriteOutcome(Close(g), [], false)
  }

  function WriteString(g: SerialGateway, message: string, delivered: bool): (r: WriteOutcome)
    ensures r.ok <==> IsOpen(g) && delivered
    ensures !r.ok ==> r.gateway == Close(g) && r.wire == []
    ensures r.ok ==> r.gateway == g && r.wire == Frame(StringBytes(message))
  {
    WriteFrame(g, StringBytes(message), delivered)
  }

  /** Why a step could not finish. A fault leaves the port as it was at
      that point: a timed-out or throwing read leaves it open. */
  datatype SerialFault =
    | ReplyTimeout(portName: string)   // `ReadLine` never returned
    | ReplyCut(portName: string)       // an 11-character line: `Remove(11)` throws
    | OpenFailed(portName: string)     // `Open` threw something other than an IOException

  /** How the `CheckConnection` read loop ends. */
  datatype ReadVerdict = VersionSeen | EmptyLineSeen | CutFault | LinesRanOut

  /** A line that ends the read loop one way or another. */
  predicate Decides(line: string) {
    line == "" || CutThrows(line) || IsVersionReply(line)
  }

  /** The `CheckConnection` read loop over the lines the device sends: a
      line longer than 10 characters is cut to its first 11 (throwing on
      exactly 11) and compared with "OVR version"; an empty line ends the
      loop with false. `LinesRanOut` means the read would block. */
  method ReadReplies(lines: seq<string>) returns (r: ReadVerdict)
    ensures r == VersionSeen <==>
      exists i :: 0 <= i < |lines| && IsVersionReply(lines[i]) && forall j :: 0 <= j < i ==> !Decides(lines[j])
    ensures r == EmptyLineSeen <==>
      exists i :: 0 <= i < |lines| && lines[i] == "" && forall j :: 0 <= j < i ==> !Decides(lines[j])
    ensures r == CutFault <==>
      exists i :: 0 <= i < |lines| && CutThrows(lines[i]) && forall j :: 0 <= j < i ==> !Decides(lines[j])
    ensures r == LinesRanOut <==> forall i :: 0 <= i < |lines| ==> !Decides(lines[i])
  {
    var k := 0;
    while k < |lines|
      invariant 0 <= k <= |lines|
      invariant forall j :: 0 <= j < k ==> !Decides(lines[j])
    {
      var line := lines[k];
      if |line| > 10 {
        if |line| <= |VersionPrefix| {
          return CutFault;
        }
        if line[..|VersionPrefix|] == VersionPrefix {
          return VersionSeen;
        }
      }
      if line == "" {
        return EmptyLineSeen;
      }
      k := k + 1;
    }
    return LinesRanOut;
  }

  /** `CheckConnection`: a closed port fails at once; otherwise the query is
      written (a failed write closes the port) and the replies are read. */
  method CheckConnection(g: SerialGateway, delivered: bool, lines: seq<string>)
    returns (r: Result<(SerialGateway, bool), SerialFault>, wire: seq<byte>)
    ensures IsOpen(g) && delivered ==> wire == Frame(StringBytes(VersionQuery))
    ensures !(IsOpen(g) && delivered) ==> wire == []
    ensures !IsOpen(g) ==> r == Success((g, false))
    ensures IsOpen(g) && !delivered ==> r == Success((Close(g), false))
    ensures r.Success? && r.value.1 ==> r.value.0 == g && IsOpen(g) && delivered
    ensures IsOpen(g) && delivered ==>
      && (r == Success((g, true)) <==>
           exists i :: 0 <= i < |lines| && IsVersionReply(lines[i]) && forall j :: 0 <= j < i ==> !Decides(lines[j]))
      && (r == Success((g, false)) <==>
           exists i :: 0 <= i < |lines| && lines[i] == "" && forall j :: 0 <= j < i ==> !Decides(lines[j]))
      && (r == Failure(ReplyCut(g.port.value)) <==>
           exists i :: 0 <= i < |lines| && CutThrows(lines[i]) && forall j :: 0 <= j < i ==> !Decides(lines[j]))
      && (r == Failure(ReplyTimeout(g.port.value)) <==> forall i :: 0 <= i < |lines| ==> !Decides(lines[i]))
  {
    if !IsOpen(g) {
      return Success((g, false)), [];
    }
    var w := WriteString(g, VersionQuery, delivered);
    wire := w.wire;
    if !w.ok {
      return Success((w.gateway, false)), wire;
    }
    var verdict := ReadReplies(lines);
    match verdict {
      case VersionSeen => r := Success((g, true));
      case EmptyLineSeen => r := Success((g, false));
      case CutFault => r := Failure(ReplyCut(g.port.value));
      case LinesRanOut => r := Failure(ReplyTimeout(g.port.value));
    }
  }

  /** What `Open` does on a candidate port. Only an IOException is caught;
      any other exception (the port is held by another process, a bad
      name) leaves `Connect`. */
  datatype OpenOutcome = Opened | OpenIoError | OpenRejected

  /** One candidate port: how `Open` ends, whether the query write goes
      through, and the first line it answers with (None: no answer). */
  datatype PortProbe = PortProbe(name: string, open: OpenOutcome, delivered: bool, reply: Option<string>)

  /** The probe reaches `ReadLine`. */
  predicate Answers(p: PortProbe) {
    p.open == Opened && p.delivered
  }

  predicate Accepts(p: PortProbe) {
    Answers(p) && p.reply.Some? && IsVersionReply(p.reply.value)
  }

  predicate Hangs(p: PortProbe) {
    Answers(p) && p.reply.None?
  }

  predicate Cuts(p: PortProbe) {
    Answers(p) && p.reply.Some? && CutThrows(p.reply.value)
  }

  /** A probe that ends the scan: it accepts, its read blocks or throws, or
      its `Open` throws an exception that is not caught. */
  predicate Decisive(p: PortProbe) {
    Accepts(p) || Hangs(p) || Cuts(p) || p.open == OpenRejected
  }

  /** The probe that ends the scan; every probe before it closes its port
      (or never opened it) and the scan moves on. */
  function FirstDecisive(probes: seq<PortProbe>): (i: nat)
    ensures i <= |probes|
    ensures forall j :: 0 <= j < i ==> !Decisive(probes[j])
    ensures i < |probes| ==> Decisive(probes[i])
    decreases |probes|
  {
    if |probes| == 0 then 0
    else if Decisive(probes[0]) then 0
    else 1 + FirstDecisive(probes[1..])
  }

  /** The loop of `Connect` over the port names, on a closed port. */
  function ScanPorts(g: SerialGateway, probes: seq<PortProbe>): Result<SerialGateway, SerialFault>
    requires !IsOpen(g)
    decreases |probes|
  {
    if |probes| == 0 then Success(g)
    else
      var p := probes[0];
      match p.open
      case OpenRejected => Failure(OpenFailed(p.name))
      case OpenIoError => ScanPorts(g, probes[1..])
      case Opened =>
        if !p.delivered then ScanPorts(g, probes[1..])
        else match p.reply
          case None => Failure(ReplyTimeout(p.name))
          case Some(line) =>
            if |line| < |VersionPrefix| then ScanPorts(g, probes[1..])
            else if CutThrows(line) then Failure(ReplyCut(p.name))
            else if line[..|VersionPrefix|] == VersionPrefix then Success(g.(port := Some(p.name)))
            else ScanPorts(g, probes[1..])
  }

  lemma {:induction false} ScanPortsFirstDecisive(g: SerialGateway, probes: seq<PortProbe>)
    requires !IsOpen(g)
    ensures var i := FirstDecisive(probes);
      && (i == |probes| ==> ScanPorts(g, probes) == Success(g))
      && (i < |probes| && Accepts(probes[i]) ==> ScanPorts(g, probes) == Success(g.(port := Some(probes[i].name))))
      && (i < |probes| && Hangs(probes[i]) ==> ScanPorts(g, probes) == Failure(ReplyTimeout(probes[i].name)))
      && (i < |probes| && Cuts(probes[i]) ==> ScanPorts(g, probes) == Failure(ReplyCut(probes[i].name)))
      && (i < |probes| && probes[i].open == OpenRejected ==> ScanPorts(g, probes) == Failure(OpenFailed(probes[i].name)))
    decreases |probes|
  {
    if |probes| > 0 && !Decisive(probes[0]) {
      ScanPortsFirstDecisive(g, probes[1..]);
      assert forall j :: 0 <= j < |probes| - 1 ==> probes[1..][j] == probes[j + 1];
    }
  }

  /** `Connect`: an open port is kept as is; otherwise the first decisive
      probe settles it. An accepted reply leaves that port open; a read
      that blocks or throws leaves it open too, but the call does not
      complete, and neither does one whose `Open` throws. */
  function Connect(g: SerialGateway, probes: seq<PortProbe>): (r: Result<(SerialGateway, bool), SerialFault>)
    ensures IsOpen(g) ==> r == Success((g, true))
    ensures !IsOpen(g) ==> var i := FirstDecisive(probes);
      && (i == |probes| ==> r == Success((g, false)))
      && (i < |probes| && Accepts(probes[i]) ==> r == Success((g.(port := Some(probes[i].name)), true)))
      && (i < |probes| && Hangs(probes[i]) ==> r == Failure(ReplyTimeout(probes[i].name)))
      && (i < |probes| && Cuts(probes[i]) ==> r == Failure(ReplyCut(probes[i].name)))
      && (i < |probes| && probes[i].open == OpenRejected ==> r == Failure(OpenFailed(probes[i].name)))
  {
    if IsOpen(g) then Success((g, true))
    else
      ScanPortsFirstDecisive(g, probes);
      var next :- ScanPorts(g, probes);
      Success((next, IsOpen(next)))
  }

  /** The bare prefix as a reply stops the scan with a fault, although it
      is exactly the text the guard looks for. */
  lemma ConnectCutsBarePrefix(g: SerialGateway, name: string, later: seq<PortProbe>)
    requires !IsOpen(g)
    ensures Connect(g, [PortProbe(name, Opened, true, Some(VersionPrefix))] + later) == Failure(ReplyCut(name))
  {
    var probes := [PortProbe(name, Opened, true, Some(VersionPrefix))] + later;
    assert probes[0] == PortProbe(name, Opened, true, Some(VersionPrefix));
    assert Cuts(probes[0]);
  }

  /** A port held by another process stops the scan before a later port
      that would have answered is tried. */
  lemma PortInUseStopsScan(g: SerialGateway, busy: string, free: string)
    requires !IsOpen(g)
    ensures Connect(g, [PortProbe(busy, OpenRejected, false, None),
                        PortProbe(free, Opened, true, Some("OVR version 0.2"))]) == Failure(OpenFailed(busy))
  {
    var probes := [PortProbe(busy, OpenRejected, false, None), PortProbe(free, Opened, true, Some("OVR version 0.2"))];
    assert Decisive(probes[0]);
  }

  /** `Init`: a buffer for the type byte, the count and `max` records (the
      code reserves `sizeof(ushort) + 1` bytes beside the records), then
      the request that switches the device to serial mode. */
  function Init(g: SerialGateway, max: nat, delivered: bool): (r: WriteOutcome)
    ensures r.gateway.maxCommands == max
    ensures |r.gateway.packet| == CommandSize * max + 3
    ensures r.gateway.commands == g.commands
    ensures r.ok <==> IsOpen(g) && delivered
    ensures r.ok ==> r.wire == Frame(StringBytes(RunSerial))
    ensures r.ok ==> r.gateway == g.(maxCommands := max, packet := Zeros(CommandSize * max + 3))
    ensures !r.ok ==> !IsOpen(r.gateway) && r.wire == []
  {
    var sized := g.(maxCommands := max, packet := Zeros(CommandSize * max + 3));
    WriteString(sized, RunSerial, delivered)
  }

  /** Appends one command unless the buffer is full. */
  function AddCommand(g: SerialGateway, c: OdorantCommand): (r: SerialGateway)
    ensures |g.commands| >= g.maxCommands ==> r == g
    ensures |g.commands| < g.maxCommands ==> r == g.(commands := g.commands + [c])
    ensures |g.commands| <= g.maxCommands ==> |r.commands| <= r.maxCommands
  {
    if |g.commands| >= g.maxCommands then g else g.(commands := g.commands + [c])
  }

  /** Appends the whole batch; unlike the UDP gateway there is no cap. */
  function AddCommands(g: SerialGateway, cs: seq<OdorantCommand>): (r: SerialGateway)
    ensures |r.commands| == |g.commands| + |cs|
    ensures r.commands[..|g.commands|] == g.commands && r.commands[|g.commands|..] == cs
    ensures r.(commands := g.commands) == g
  {
    g.(commands := g.commands + cs)
  }

  function RemoveCommand(g: SerialGateway, slot: byte): (r: SerialGateway)
    ensures r.commands == RemoveSlot(g.commands, slot)
    ensures forall c :: c in r.commands <==> c in g.commands && c.Slot() != slot
    ensures r.(commands := g.commands) == g
  {
    g.(commands := RemoveSlot(g.commands, slot))
  }

  function ClearCommands(g: SerialGateway): (r: SerialGateway)
    ensures !HasCommandsToSend(r)
    ensures r.(commands := g.commands) == g
  {
    g.(commands := [])
  }

  predicate HasCommandsToSend(g: SerialGateway) {
    |g.commands| > 0
  }

  /** The three bytes a command takes in a serial packet. The code stores
      the 16-bit intensity in one byte; a C# compiler rejects that implicit
      narrowing, and this model keeps the low byte. */
  function SerialRecord(c: OdorantCommand): (r: seq<byte>)
    ensures |r| == SerialRecordSize
  {
    [c.Slot(), c.Algorithm(), ByteOf(c.Intensity())]
  }

  /** Writes the three-byte records of `cs` one after another from `off`. */
  function WriteSerialRecords(buf: seq<byte>, off: nat, cs: seq<OdorantCommand>): (r: seq<byte>)
    requires off + SerialRecordSize * |cs| <= |buf|
    ensures |r| == |buf|
    ensures forall k :: 0 <= k < |buf| && !(off <= k < off + SerialRecordSize * |cs|) ==> r[k] == buf[k]
    ensures forall i, j :: 0 <= i < |cs| && 0 <= j < SerialRecordSize ==>
      r[off + SerialRecordSize * i + j] == SerialRecord(cs[i])[j]
  {
    var records := SerialRecordsOf(cs);
    ConcatLength(records, SerialRecordSize);
    var r := Overwrite(buf, off, Concat(records));
    forall i, j | 0 <= i < |cs| && 0 <= j < SerialRecordSize
      ensures r[off + SerialRecordSize * i + j] == SerialRecord(cs[i])[j]
    {
      ConcatAt(records, SerialRecordSize, i, j);
    }
    r
  }

  /** `CommandsToBytes`: the type byte, the count cast to `byte`, then one
      record per command; bytes past the last record keep their old
      contents. */
  function CommandsToBytes(g: SerialGateway): (r: seq<byte>)
    requires SerialPacketHeader + SerialRecordSize * |g.commands| <= |g.packet|
    ensures |r| == |g.packet|
    ensures r[0] == SerialOdorantCommand && r[1] == ByteOf(|g.commands|)
    ensures forall i, j :: 0 <= i < |g.commands| && 0 <= j < SerialRecordSize ==>
      r[SerialPacketHeader + SerialRecordSize * i + j] == SerialRecord(g.commands[i])[j]
    ensures forall k :: SerialPacketHeader + SerialRecordSize * |g.commands| <= k < |r| ==> r[k] == g.packet[k]
  {
    var head := [SerialOdorantCommand, ByteOf(|g.commands|)] + g.packet[SerialPacketHeader..];
    WriteSerialRecords(head, SerialPacketHeader, g.commands)
  }

  /** The buffer `Init` allocates holds every record as long as the buffer
      holds no more commands than the cap. */
  lemma CommandsFitAfterInit(g: SerialGateway)
    requires |g.packet| == CommandSize * g.maxCommands + 3
    requires |g.commands| <= g.maxCommands
    ensures SerialPacketHeader + SerialRecordSize * |g.commands| <= |g.packet|
  {
  }

  /** `SendCommands`: the packet is rebuilt and then framed whole, records
      past the count included. */
  function SendCommands(g: SerialGateway, delivered: bool): (r: WriteOutcome)
    requires SerialPacketHeader + SerialRecordSize * |g.commands| <= |g.packet|
    ensures r.ok <==> IsOpen(g) && delivered
    ensures r.ok ==> |r.wire| == LengthPrefixSize + |g.packet| && r.wire[LengthPrefixSize..] == CommandsToBytes(g)
    ensures !r.ok ==> !IsOpen(r.gateway)
    ensures r.ok ==> r.gateway == g.(packet := CommandsToBytes(g))
    ensures r.gateway.commands == g.commands && r.gateway.maxCommands == g.maxCommands
  {
    var p := CommandsToBytes(g);
    WriteFrame(g.(packet := p), p, delivered)
  }

  /** After `Init`, a send always puts 4 * max + 5 bytes on the wire, however
      many commands are held. */
  lemma SendLengthFixed(g: SerialGateway, delivered: bool)
    requires |g.packet| == CommandSize * g.maxCommands + 3
    requires |g.commands| <= g.maxCommands
    ensures SerialPacketHeader + SerialRecordSize * |g.commands| <= |g.packet|
    ensures var r := SendCommands(g, delivered);
      r.ok ==> |r.wire| == CommandSize * g.maxCommands + 5
  {
  }

  /** How the device reads a serial packet: the type, the count, and that
      many three-byte records. */
  function DecodeSerialPacket(p: seq<byte>): (r: Option<seq<seq<byte>>>)
    ensures r.Some? ==> |p| >= SerialPacketHeader && |r.value| == p[1]
  {
    if |p| < SerialPacketHeader || p[0] != SerialOdorantCommand
       || |p| < SerialPacketHeader + SerialRecordSize * p[1]
    then None
    else Some(seq(p[1], i requires 0 <= i < p[1] =>
      p[SerialPacketHeader + SerialRecordSize * i .. SerialPacketHeader + SerialRecordSize * i + SerialRecordSize]))
  }

  function SerialRecordsOf(cs: seq<OdorantCommand>): (r: seq<seq<byte>>)
    ensures |r| == |cs| && forall i :: 0 <= i < |cs| ==> r[i] == SerialRecord(cs[i])
  {
    seq(|cs|, i requires 0 <= i < |cs| => SerialRecord(cs[i]))
  }

  /** Fewer than 256 commands decode back as their records: slot, algorithm
      and the low byte of the intensity. */
  lemma CommandsToBytesDecodes(g: SerialGateway)
    requires SerialPacketHeader + SerialRecordSize * |g.commands| <= |g.packet|
    requires |g.commands| < 256
    ensures DecodeSerialPacket(CommandsToBytes(g)) == Some(SerialRecordsOf(g.commands))
  {
    var p := CommandsToBytes(g);
    var n := |g.commands|;
    assert p[0] == SerialOdorantCommand && p[1] == n;
    assert DecodeSerialPacket(p).Some?;
    var rs := DecodeSerialPacket(p).value;
    forall i | 0 <= i < n
      ensures rs[i] == SerialRecord(g.commands[i])
    {
      assert forall j :: 0 <= j < SerialRecordSize ==> rs[i][j] == SerialRecord(g.commands[i])[j];
    }
    assert rs == SerialRecordsOf(g.commands);
  }

  /** With 256 commands the count byte reads 0: the count wraps. */
  lemma CountWraps(g: SerialGateway)
    requires SerialPacketHeader + SerialRecordSize * |g.commands| <= |g.packet|
    requires |g.commands| == 256
    ensures DecodeSerialPacket(CommandsToBytes(g)) == Some([])
  {
  }
}

=== FILE: text.dfy ===
/** Plain-text helpers for the CSV log line: the decimal rendering C# uses
    for a non-negative `int.ToString()`, and comma-separated fields. */
module Text {

  function DigitChar(d: nat): (c: char)
    requires d < 10
    ensures '0' <= c <= '9'
  {
    ['0', '1', '2', '3', '4', '5', '6', '7', '8', '9'][d]
  }

  function DigitValue(c: char): nat
    requires '0' <= c <= '9'
  {
    (c as int) - ('0' as int)
  }

  predicate AllDigits(s: string) {
    forall i :: 0 <= i < |s| ==> '0' <= s[i] <= '9'
  }

  /** Decimal digits of `n`, most significant first, with no leading zero. */
  function NatToDecimal(n: nat): (s: string)
    ensures 1 <= |s|
    ensures AllDigits(s)
    ensures |s| > 1 ==> s[0] != '0'
    decreases n
  {
    if n < 10 then [DigitChar(n)] else NatToDecimal(n / 10) + [DigitChar(n % 10)]
  }

  /** Reads a string of decimal digits as a number. */
  function ParseDecimal(s: string): nat
    requires AllDigits(s)
    decreases |s|
  {
    if |s| == 0 then 0 else 10 * ParseDecimal(s[..|s| - 1]) + DigitValue(s[|s| - 1])
  }

  lemma DigitRoundTrip(d: nat)
    requires d < 10
    ensures DigitValue(DigitChar(d)) == d
  {
  }

  /** Rendering then parsing a number gives it back. */
  lemma {:induction false} DecimalRoundTrip(n: nat)
    ensures ParseDecimal(NatToDecimal(n)) == n
    decreases n
  {
    var s := NatToDecimal(n);
    if n < 10 {
      DigitRoundTrip(n);
      assert s[..|s| - 1] == [];
    } else {
      DecimalRoundTrip(n / 10);
      DigitRoundTrip(n % 10);
      assert s[..|s| - 1] == NatToDecimal(n / 10);
    }
  }

  /** `a,b,c,...`: the fields joined by commas. */
  function JoinFields(fields: seq<string>): string
    requires 1 <= |fields|
    decreases |fields|
  {
    if |fields| == 1 then fields[0] else fields[0] + "," + JoinFields(fields[1..])
  }

  /** Cuts a line at every comma; the inverse of `JoinFields` when no field
      holds a comma. */
  function SplitFields(line: string): (fields: seq<string>)
    ensures 1 <= |fields|
    decreases |line|
  {
    if |line| == 0 then [""]
    else if line[0] == ',' then [""] + SplitFields(line[1..])
    else
      var rest := SplitFields(line[1..]);
      [[line[0]] + rest[0]] + rest[1..]
  }

  predicate NoComma(s: string) {
    forall i :: 0 <= i < |s| ==> s[i] != ','
  }

  /** A field with no comma, followed by a comma and more text, splits off
      as the first field. */
  lemma {:induction false} SplitFirstField(f: string, rest: string)
    requires NoComma(f)
    ensures SplitFields(f + "," + rest) == [f] + SplitFields(rest)
    decreases |f|
  {
    if |f| == 0 {
      assert f + "," + rest == [','] + rest;
      assert (f + "," + rest)[1..] == rest;
    } else {
      var line := f + "," + rest;
      assert line[0] == f[0];
      assert line[1..] == f[1..] + "," + rest;
      SplitFirstField(f[1..], rest);
      assert [f[0]] + f[1..] == f;
    }
  }

  lemma {:induction false} SplitWholeField(f: string)
    requires NoComma(f)
    ensures SplitFields(f) == [f]
    decreases |f|
  {
    if |f| > 0 {
      SplitWholeField(f[1..]);
      assert [f[0]] + f[1..] == f;
    }
  }

  /** Splitting a comma-joined line gives back the fields, provided no field
      contains a comma itself. */
  lemma {:induction false} SplitJoin(fields: seq<string>)
    requires 1 <= |fields|
    requires forall i :: 0 <= i < |fields| ==> NoComma(fields[i])
    ensures SplitFields(JoinFields(fields)) == fields
    decreases |fields|
  {
    if |fields| == 1 {
      SplitWholeField(fields[0]);
    } else {
      SplitJoin(fields[1..]);
      SplitFirstField(fields[0], JoinFields(fields[1..]));
      assert [fields[0]] + fields[1..] == fields;
    }
  }

  lemma DigitsHaveNoComma(s: string)
    requires AllDigits(s)
    ensures NoComma(s)
  {
  }
}

=== FILE: wifi_gateway.dfy ===
/** The UDP transport: discovery by broadcasting a hostname request,
    connection on a matching hostname reply, a 2000 ms liveness timeout, and
    one batch datagram of commands per send. Sockets are not modelled: every
    operation returns the datagrams it would transmit, and receiving is a
    sequential event applied to the gateway state. */
module WifiGateway {
  import opened Bytes
  import opened Wrappers
  import opened Header
  import opened Commands
  import opened MessageTypes
  import IpAddresses

  const RemotePort: nat := 4210
  const ConnectionTimeoutMs: int := 2000

  datatype Endpoint = Endpoint(address: bv32, port: int)

  datatype Datagram = Datagram(to: Endpoint, payload: seq<byte>)

  /** The connection stopwatch. The code only starts and restarts it, so it
      is either not yet started (elapsed 0) or running since a time in ms. */
  datatype Stopwatch = NotStarted | RunningSince(start: int)

  function Elapsed(w: Stopwatch, now: int): int {
    match w
    case NotStarted => 0
    case RunningSince(t) => now - t
  }

  /** `Stopwatch.Start`: a running stopwatch keeps running undisturbed. */
  function Start(w: Stopwatch, now: int): Stopwatch {
    if w.NotStarted? then RunningSince(now) else w
  }

  datatype WifiGateway = WifiGateway(
    hostname: seq<byte>,           // the device name a reply must carry
    hostnameRequest: seq<byte>,    // the discovery datagram, built once
    commands: seq<OdorantCommand>, // held until the next send
    maxCommands: nat,
    packet: seq<byte>,             // outgoing buffer; empty until Init
    endpoint: Option<Endpoint>,    // the device, once it has answered
    timer: Stopwatch,
    debugMode: bool)

  /** What a step did: the new state and the datagrams it sent. */
  datatype Step = Step(gateway: WifiGateway, datagrams: seq<Datagram>)

  /** The discovery request: a header of type HostnameRequest and size 2,
      then the local receive port, little-endian. The code writes both into
      a zeroed 6-byte buffer, which comes to the same bytes. */
  function HostnameRequestPacket(port: uint16): (p: seq<byte>)
    ensures |p| == HeaderSize + 2
  {
    ToBytes(Encode(HostnameRequest, 2)) + [ByteOf(port), HighByte(port)]
  }

  lemma HostnameRequestHeader(port: uint16)
    ensures Decode(HostnameRequestPacket(port), 0) == Encode(HostnameRequest, 2)
  {
    var h := Encode(HostnameRequest, 2);
    DecodeSameBytes(ToBytes(h), HostnameRequestPacket(port), 0);
    DecodeToBytes(h);
  }

  lemma HostnameRequestPort(port: uint16)
    ensures var p := HostnameRequestPacket(port); Le16(p[4], p[5]) == port
  {
    Le16OfBytes(port);
  }

  /** The request decodes as a valid HostnameRequest header whose size, 2,
      accounts for the rest of the datagram, and the payload reads back as
      the receive port. */
  lemma HostnameRequestDecodes(port: uint16)
    ensures var p := HostnameRequestPacket(port);
      && Decode(p, 0) == Encode(HostnameRequest, 2)
      && Valid(Decode(p, 0))
      && TotalMessageSize(Decode(p, 0)) == |p|
      && Le16(p[4], p[5]) == port
  {
    HostnameRequestHeader(port);
    HostnameRequestPort(port);
  }

  /** The constructor: nothing held, no device known, timer not started. */
  function NewGateway(hostname: seq<byte>, receivePort: uint16): (g: WifiGateway)
    ensures g.endpoint.None? && g.commands == [] && !g.debugMode
    ensures g.hostname == hostname && g.timer == NotStarted
    ensures g.packet == [] && g.maxCommands == 0
    ensures g.hostnameRequest == HostnameRequestPacket(receivePort)
  {
    WifiGateway(hostname, HostnameRequestPacket(receivePort), [], 0, [], None, NotStarted, false)
  }

  predicate IsConnected(g: WifiGateway) {
    g.endpoint.Some?
  }

  predicate HasCommandsToSend(g: WifiGateway) {
    |g.commands| > 0
  }

  /** Sizes the buffer for a header and `max` records and starts the timer. */
  function Init(g: WifiGateway, max: nat, now: int): (r: WifiGateway)
    ensures r.maxCommands == max
    ensures r.packet == Zeros(HeaderSize + CommandSize * max)
    ensures |r.packet| == HeaderSize + CommandSize * max
    ensures r.(maxCommands := g.maxCommands, packet := g.packet, timer := g.timer) == g
    ensures r.timer.RunningSince?
    ensures g.timer.RunningSince? ==> r.timer == g.timer
  {
    g.(maxCommands := max, packet := Zeros(HeaderSize + CommandSize * max), timer := Start(g.timer, now))
  }

  /** Appends one command unless the buffer is full. */
  function AddCommand(g: WifiGateway, c: OdorantCommand): (r: WifiGateway)
    ensures |g.commands| >= g.maxCommands ==> r == g
    ensures |g.commands| < g.maxCommands ==> r == g.(commands := g.commands + [c])
    ensures |g.commands| <= g.maxCommands ==> |r.commands| <= r.maxCommands
  {
    if |g.commands| >= g.maxCommands then g else g.(commands := g.commands + [c])
  }

  /** All or nothing: the batch is taken only if it fits entirely. */
  function AddCommands(g: WifiGateway, cs: seq<OdorantCommand>): (r: WifiGateway)
    ensures |cs| + |g.commands| > g.maxCommands ==> r == g
    ensures |cs| + |g.commands| <= g.maxCommands ==> r == g.(commands := g.commands + cs)
    ensures |g.commands| <= g.maxCommands ==> |r.commands| <= r.maxCommands
  {
    if |cs| + |g.commands| > g.maxCommands then g else g.(commands := g.commands + cs)
  }

  function RemoveCommand(g: WifiGateway, slot: byte): (r: WifiGateway)
    ensures r.commands == RemoveSlot(g.commands, slot)
    ensures forall c :: c in r.commands ==> c.Slot() != slot
    ensures r.(commands := g.commands) == g
  {
    g.(commands := RemoveSlot(g.commands, slot))
  }

  function ClearCommands(g: WifiGateway): (r: WifiGateway)
    ensures !HasCommandsToSend(r)
    ensures r.(commands := g.commands) == g
  {
    g.(commands := [])
  }

  /** Copies each command's four bytes into consecutive records from `off`. */
  function WriteRecords(buf: seq<byte>, off: nat, cs: seq<OdorantCommand>): (r: seq<byte>)
    requires off + CommandSize * |cs| <= |buf|
    ensures |r| == |buf|
    ensures forall k :: 0 <= k < |buf| && !(off <= k < off + CommandSize * |cs|) ==> r[k] == buf[k]
    ensures forall i, j :: 0 <= i < |cs| && 0 <= j < CommandSize ==> r[off + CommandSize * i + j] == cs[i].packet[j]
  {
    var records := PacketsOf(cs);
    ConcatLength(records, CommandSize);
    var r := Overwrite(buf, off, Concat(records));
    forall i, j | 0 <= i < |cs| && 0 <= j < CommandSize
      ensures r[off + CommandSize * i + j] == cs[i].packet[j]
    {
      ConcatAt(records, CommandSize, i, j);
    }
    r
  }

  /** Payload length of a batch as the header carries it: a `ushort`, so
      4n wraps past 65535. */
  function BatchSize(n: nat): uint16 {
    (CommandSize * n) % 0x1_0000
  }

  lemma BatchSizeNoWrap(n: nat)
    requires n < 0x4000
    ensures BatchSize(n) == CommandSize * n
  {
  }

  /** The batch packet: a header of type OdorantCommands, then one record
      per command; bytes past the last record keep their old contents. */
  function CommandsToPacket(g: WifiGateway): (r: seq<byte>)
    requires HeaderSize + CommandSize * |g.commands| <= |g.packet|
    ensures |r| == |g.packet|
    ensures Decode(r, 0) == Encode(OdorantCommands, BatchSize(|g.commands|))
    ensures forall i, j :: 0 <= i < |g.commands| && 0 <= j < CommandSize ==>
      r[HeaderSize + CommandSize * i + j] == g.commands[i].packet[j]
    ensures forall k :: HeaderSize + CommandSize * |g.commands| <= k < |r| ==> r[k] == g.packet[k]
  {
    var h := WriteHeader(g.packet, OdorantCommands, BatchSize(|g.commands|));
    var r := WriteRecords(h, HeaderSize, g.commands);
    DecodeSameBytes(h, r, 0);
    r
  }

  /** Transmits the first 4 + 4n bytes of the batch packet to the device;
      with no device known it sends nothing and reports failure. */
  function SendCommands(g: WifiGateway): (r: (Step, bool))
    requires g.endpoint.Some? ==> HeaderSize + CommandSize * |g.commands| <= |g.packet|
    ensures g.endpoint.None? ==> r == (Step(g, []), false)
    ensures g.endpoint.Some? ==>
      && r.1
      && |r.0.datagrams| == 1
      && r.0.datagrams[0].to == g.endpoint.value
      && |r.0.datagrams[0].payload| == HeaderSize + CommandSize * |g.commands|
      && r.0.gateway.(packet := g.packet) == g
  {
    match g.endpoint
    case None => (Step(g, []), false)
    case Some(ep) =>
      var p := CommandsToPacket(g);
      (Step(g.(packet := p), [Datagram(ep, p[..HeaderSize + CommandSize * |g.commands|])]), true)
  }

  /** The payload of the batch datagram, when a device is known. */
  function SentPayload(g: WifiGateway): seq<byte>
    requires g.endpoint.Some?
    requires HeaderSize + CommandSize * |g.commands| <= |g.packet|
  {
    SendCommands(g).0.datagrams[0].payload
  }

  lemma SentBatchHeader(g: WifiGateway)
    requires g.endpoint.Some?
    requires HeaderSize + CommandSize * |g.commands| <= |g.packet|
    ensures Decode(SentPayload(g), 0) == Encode(OdorantCommands, BatchSize(|g.commands|))
  {
    var p := CommandsToPacket(g);
    DecodeSameBytes(p, SentPayload(g), 0);
  }

  lemma SentBatchRecords(g: WifiGateway)
    requires g.endpoint.Some?
    requires HeaderSize + CommandSize * |g.commands| <= |g.packet|
    ensures forall i, j :: 0 <= i < |g.commands| && 0 <= j < CommandSize ==>
      SentPayload(g)[HeaderSize + CommandSize * i + j] == g.commands[i].packet[j]
  {
  }

  /** Four-byte records read back from a payload, after the header. */
  function Records(payload: seq<byte>, count: nat): (r: seq<Packet>)
    requires HeaderSize + CommandSize * count <= |payload|
    ensures |r| == count
    ensures forall i, j :: 0 <= i < count && 0 <= j < CommandSize ==> r[i][j] == payload[HeaderSize + CommandSize * i + j]
  {
    seq(count, i requires 0 <= i < count =>
      payload[HeaderSize + CommandSize * i .. HeaderSize + CommandSize * i + CommandSize])
  }

  /** How the device reads a batch datagram: a valid OdorantCommands header
      whose size is a whole number of records and matches the datagram. */
  function DecodeBatch(payload: seq<byte>): Option<seq<Packet>> {
    if |payload| < HeaderSize then None
    else
      var h := Decode(payload, 0);
      if !Valid(h) || h.messageType != OdorantCommands || h.messageSize % CommandSize != 0
         || |payload| != TotalMessageSize(h)
      then None
      else Some(Records(payload, h.messageSize / CommandSize))
  }

  function PacketsOf(cs: seq<OdorantCommand>): (r: seq<Packet>)
    ensures |r| == |cs| && forall i :: 0 <= i < |cs| ==> r[i] == cs[i].packet
  {
    seq(|cs|, i requires 0 <= i < |cs| => cs[i].packet)
  }

  /** A datagram of `n` records under a matching encoded header is accepted. */
  lemma DecodeBatchAccepts(payload: seq<byte>, n: nat)
    requires CommandSize * n < 0x1_0000
    requires |payload| == HeaderSize + CommandSize * n
    requires Decode(payload, 0) == Encode(OdorantCommands, CommandSize * n)
    ensures DecodeBatch(payload) == Some(Records(payload, n))
  {
    var h := Decode(payload, 0);
    assert Valid(h) && h.messageSize == CommandSize * n;
    assert h.messageSize % CommandSize == 0 && h.messageSize / CommandSize == n;
  }

  lemma RecordsArePackets(payload: seq<byte>, cs: seq<OdorantCommand>)
    requires HeaderSize + CommandSize * |cs| <= |payload|
    requires forall i, j :: 0 <= i < |cs| && 0 <= j < CommandSize ==>
      payload[HeaderSize + CommandSize * i + j] == cs[i].packet[j]
    ensures Records(payload, |cs|) == PacketsOf(cs)
  {
    var rs := Records(payload, |cs|);
    forall i | 0 <= i < |cs|
      ensures rs[i] == cs[i].packet
    {
      assert forall j :: 0 <= j < CommandSize ==> rs[i][j] == cs[i].packet[j];
    }
  }

  /** What is sent is what the device decodes: for fewer than 16384
      commands the datagram reads back as exactly the held commands. */
  lemma SendCommandsDecodes(g: WifiGateway)
    requires g.endpoint.Some?
    requires HeaderSize + CommandSize * |g.commands| <= |g.packet|
    requires |g.commands| < 0x4000
    ensures DecodeBatch(SentPayload(g)) == Some(PacketsOf(g.commands))
  {
    var payload := SentPayload(g);
    SentBatchHeader(g);
    SentBatchRecords(g);
    BatchSizeNoWrap(|g.commands|);
    DecodeBatchAccepts(payload, |g.commands|);
    RecordsArePackets(payload, g.commands);
  }

  /** With 16384 commands or more the header's size field has wrapped, so
      the datagram no longer matches its own header. */
  lemma BatchSizeWraps(g: WifiGateway)
    requires g.endpoint.Some?
    requires HeaderSize + CommandSize * |g.commands| <= |g.packet|
    requires 0x4000 <= |g.commands|
    ensures var payload := SendCommands(g).0.datagrams[0].payload;
      TotalMessageSize(Decode(payload, 0)) != |payload|
      && DecodeBatch(payload).None?
  {
    var p := CommandsToPacket(g);
    var payload := p[..HeaderSize + CommandSize * |g.commands|];
    assert Decode(payload, 0) == Decode(p, 0);
  }

  /** The device is forgotten; nothing else changes. */
  function OnDisconnect(g: WifiGateway): (r: WifiGateway)
    ensures !IsConnected(r)
    ensures r.(endpoint := g.endpoint) == g
  {
    g.(endpoint := None)
  }

  /** Past the 2000 ms timeout the device is forgotten and the check fails;
      otherwise nothing changes. */
  function CheckConnection(g: WifiGateway, now: int): (r: (WifiGateway, bool))
    ensures r.1 <==> Elapsed(g.timer, now) <= ConnectionTimeoutMs
    ensures !r.1 ==> !IsConnected(r.0) && r.0.(endpoint := g.endpoint) == g
    ensures r.1 ==> r.0 == g
  {
    if Elapsed(g.timer, now) > ConnectionTimeoutMs then (OnDisconnect(g), false) else (g, true)
  }

  /** A gateway never started (before `Init`) never times out. */
  lemma UnstartedNeverTimesOut(g: WifiGateway, now: int)
    requires g.timer.NotStarted?
    ensures CheckConnection(g, now) == (g, true)
  {
  }

  /** The device answered: remember it and ask it for its debug mode. Before
      Init the buffer does not exist, so the request is never sent. */
  function OnConnect(g: WifiGateway, ep: Endpoint): (r: Step)
    ensures r.gateway.endpoint == Some(ep)
    ensures r.gateway.(endpoint := g.endpoint, packet := g.packet) == g
    ensures |g.packet| < HeaderSize ==> r.datagrams == []
    ensures |g.packet| >= HeaderSize ==>
      && |r.datagrams| == 1 && r.datagrams[0].to == ep
      && |r.datagrams[0].payload| == HeaderSize
    ensures |r.gateway.packet| == |g.packet|
    ensures forall k :: HeaderSize <= k < |g.packet| ==> r.gateway.packet[k] == g.packet[k]
  {
    if |g.packet| < HeaderSize then Step(g.(endpoint := Some(ep)), [])
    else
      var p := WriteHeader(g.packet, DebugModeRequest, 0);
      Step(g.(endpoint := Some(ep), packet := p), [Datagram(ep, p[..HeaderSize])])
  }

  /** The request `OnConnect` sends is a bare, valid DebugModeRequest
      header. */
  lemma OnConnectRequestsDebugMode(g: WifiGateway, ep: Endpoint)
    requires |g.packet| >= HeaderSize
    ensures var payload := OnConnect(g, ep).datagrams[0].payload;
      && Decode(payload, 0) == Encode(DebugModeRequest, 0)
      && Valid(Decode(payload, 0))
      && TotalMessageSize(Decode(payload, 0)) == |payload|
  {
    HeaderPrefix(g.packet, DebugModeRequest, 0);
  }

  /** The first four bytes of a written header decode on their own. */
  lemma HeaderPrefix(buffer: seq<byte>, messageType: byte, messageSize: uint16)
    requires HeaderSize <= |buffer|
    ensures Decode(WriteHeader(buffer, messageType, messageSize)[..HeaderSize], 0) == Encode(messageType, messageSize)
  {
    var r := WriteHeader(buffer, messageType, messageSize);
    DecodeSameBytes(r, r[..HeaderSize], 0);
  }

  /** Discovery: the request goes to every broadcast address on the device
      port while no device is known, otherwise to the known device. */
  function BeginConnect(g: WifiGateway, nics: seq<IpAddresses.NetworkInterface>): (r: seq<Datagram>)
    ensures forall i :: 0 <= i < |r| ==> r[i].payload == g.hostnameRequest
    ensures g.endpoint.Some? ==> r == [Datagram(g.endpoint.value, g.hostnameRequest)]
    ensures g.endpoint.None? ==>
      && |r| == 1 + |IpAddresses.LocalIpv4(nics)|
      && r[0].to == Endpoint(IpAddresses.LimitedBroadcast, RemotePort)
      && (forall i :: 0 <= i < |r| ==> r[i].to.port == RemotePort)
      && forall i :: 0 <= i < |IpAddresses.LocalIpv4(nics)| ==>
           var local := IpAddresses.LocalIpv4(nics)[i];
           r[i + 1].to.address == IpAddresses.Broadcast(local.bits, IpAddresses.GetSubnetMask(nics, local).value)
  {
    match g.endpoint
    case Some(ep) => [Datagram(ep, g.hostnameRequest)]
    case None =>
      IpAddresses.BroadcastListShape(nics);
      var targets := IpAddresses.GetBroadcastAddresses(nics).value;
      seq(|targets|, i requires 0 <= i < |targets| => Datagram(Endpoint(targets[i], RemotePort), g.hostnameRequest))
  }

  /** A datagram the callback would index past its end. The code throws;
      here the datagram is rejected and the state is left as it was. */
  datatype RxFault = ShortHeader | ShortHostname | ShortDebugFlag

  /** A datagram long enough for a header, and the header is valid. */
  predicate ValidFrame(data: seq<byte>) {
    |data| >= HeaderSize && Valid(Decode(data, 0))
  }

  /** A whole, valid DeviceHostname frame whose name is the target's: the
      only datagram that keeps the link alive. */
  predicate TargetReply(g: WifiGateway, data: seq<byte>) {
    && ValidFrame(data)
    && Decode(data, 0).messageType == DeviceHostname
    && TotalMessageSize(Decode(data, 0)) <= |data|
    && data[HeaderSize..TotalMessageSize(Decode(data, 0))] == g.hostname
  }

  /** The receive callback: drop an invalid header; on a hostname reply equal
      to the target, restart the timer and connect if not yet connected; on a
      debug-mode reply, record whether its first payload byte is non-zero. */
  function Receive(g: WifiGateway, data: seq<byte>, from: Endpoint, now: int): (r: Result<Step, RxFault>)
    ensures |data| < HeaderSize <==> r == Failure(ShortHeader)
    ensures |data| >= HeaderSize && !Valid(Decode(data, 0)) ==> r == Success(Step(g, []))
    ensures r.Success? ==> r.value.gateway.commands == g.commands && r.value.gateway.maxCommands == g.maxCommands
    ensures r.Success? && g.endpoint.Some? ==> r.value.gateway.endpoint == g.endpoint
    ensures r.Success? && r.value.gateway.endpoint != g.endpoint ==>
      && g.endpoint.None?
      && r.value.gateway.endpoint == Some(from)
      && Valid(Decode(data, 0))
      && Decode(data, 0).messageType == DeviceHostname
      && TotalMessageSize(Decode(data, 0)) <= |data|
      && data[HeaderSize..TotalMessageSize(Decode(data, 0))] == g.hostname
    ensures r == Failure(ShortDebugFlag) <==>
      |data| == HeaderSize && Valid(Decode(data, 0)) && Decode(data, 0).messageType == DeviceDebugMode
    ensures |data| > HeaderSize && Valid(Decode(data, 0)) && Decode(data, 0).messageType == DeviceDebugMode ==>
      r == Success(Step(g.(debugMode := data[HeaderSize] > 0), []))
    ensures r.Success? && r.value.gateway.debugMode != g.debugMode ==>
      Valid(Decode(data, 0)) && Decode(data, 0).messageType == DeviceDebugMode
    ensures r.Success? && r.value.gateway.timer != g.timer ==> TargetReply(g, data)
    ensures TargetReply(g, data) ==> r.Success? && r.value.gateway.timer == RunningSince(now)
    ensures TargetReply(g, data) && g.endpoint.None? ==> r.Success? && r.value.gateway.endpoint == Some(from)
    ensures r == Failure(ShortHostname) <==>
      ValidFrame(data) && Decode(data, 0).messageType == DeviceHostname && |data| < TotalMessageSize(Decode(data, 0))
    ensures r.Success? ==>
      && r.value.gateway.hostname == g.hostname
      && r.value.gateway.hostnameRequest == g.hostnameRequest
      && |r.value.gateway.packet| == |g.packet|
      && forall k :: HeaderSize <= k < |g.packet| ==> r.value.gateway.packet[k] == g.packet[k]
    ensures ValidFrame(data) && Decode(data, 0).messageType == DeviceHostname
            && TotalMessageSize(Decode(data, 0)) <= |data| && !TargetReply(g, data)
            ==> r == Success(Step(g, []))
    ensures ValidFrame(data) && Decode(data, 0).messageType !in {DeviceHostname, DeviceDebugMode}
            ==> r == Success(Step(g, []))
  {
    if |data| < HeaderSize then Failure(ShortHeader)
    else
      var h := Decode(data, 0);
      if !Valid(h) then Success(Step(g, []))
      else if h.messageType == DeviceHostname then
        if |data| < TotalMessageSize(h) then Failure(ShortHostname)
        else if data[HeaderSize..TotalMessageSize(h)] == g.hostname then
          var alive := g.(timer := RunningSince(now));
          if g.endpoint.None? then Success(OnConnect(alive, from)) else Success(Step(alive, []))
        else Success(Step(g, []))
      else if h.messageType == DeviceDebugMode then
        if |data| <= HeaderSize then Failure(ShortDebugFlag)
        else Success(Step(g.(debugMode := data[HeaderSize] > 0), []))
      else Success(Step(g, []))
  }

  /** The reply the device sends: a DeviceHostname header and the name. */
  function HostnameReply(hostname: seq<byte>): seq<byte>
    requires |hostname| < 0x1_0000
  {
    ToBytes(Encode(DeviceHostname, |hostname|)) + hostname
  }

  /** The device's own reply is accepted: it restarts the timer and, if no
      device was known, connects to the sender and queries its debug mode. */
  lemma MatchingReplyConnects(g: WifiGateway, from: Endpoint, now: int)
    requires |g.hostname| < 0x1_0000
    ensures var r := Receive(g, HostnameReply(g.hostname), from, now);
      && r.Success?
      && r.value.gateway.timer == RunningSince(now)
      && r.value.gateway.endpoint == (if g.endpoint.None? then Some(from) else g.endpoint)
      && (g.endpoint.None? && |g.packet| >= HeaderSize ==> |r.value.datagrams| == 1)
  {
    var data := HostnameReply(g.hostname);
    DecodeToBytes(Encode(DeviceHostname, |g.hostname|));
    assert data[..HeaderSize] == ToBytes(Encode(DeviceHostname, |g.hostname|));
    assert Decode(data, 0) == Decode(data[..HeaderSize], 0);
    assert data[HeaderSize..] == g.hostname;
  }

  /** A reply naming another device changes nothing. */
  lemma ForeignReplyIgnored(g: WifiGateway, other: seq<byte>, from: Endpoint, now: int)
    requires |other| < 0x1_0000 && other != g.hostname
    ensures Receive(g, HostnameReply(other), from, now) == Success(Step(g, []))
  {
    var data := HostnameReply(other);
    DecodeToBytes(Encode(DeviceHostname, |other|));
    assert data[..HeaderSize] == ToBytes(Encode(DeviceHostname, |other|));
    assert Decode(data, 0) == Decode(data[..HeaderSize], 0);
    assert data[HeaderSize..] == other;
  }

  /** The device's debug-mode answer: a DeviceDebugMode header of size 1
      and the flag byte. */
  function DebugModeReply(flag: byte): seq<byte> {
    ToBytes(Encode(DeviceDebugMode, 1)) + [flag]
  }

  /** The device's answer is a valid DeviceDebugMode frame whose byte after
      the header is the flag. */
  lemma DebugModeReplyHeader(flag: byte)
    ensures var data := DebugModeReply(flag);
      && |data| == HeaderSize + 1 && data[HeaderSize] == flag
      && Decode(data, 0) == Encode(DeviceDebugMode, 1)
      && Valid(Decode(data, 0)) && Decode(data, 0).messageType == DeviceDebugMode
  {
    var h := Encode(DeviceDebugMode, 1);
    DecodeToBytes(h);
    DecodeSameBytes(ToBytes(h), DebugModeReply(flag), 0);
  }

  /** A valid DeviceDebugMode frame sets the debug flag exactly when its
      byte after the header is non-zero, and touches nothing else. */
  lemma DebugModeFrameSetsFlag(g: WifiGateway, data: seq<byte>, from: Endpoint, now: int)
    requires |data| > HeaderSize
    requires Valid(Decode(data, 0)) && Decode(data, 0).messageType == DeviceDebugMode
    ensures var r := Receive(g, data, from, now);
      && r.Success? && r.value.datagrams == []
      && (r.value.gateway.debugMode <==> data[HeaderSize] != 0)
      && r.value.gateway.(debugMode := g.debugMode) == g
  {
  }
}

=== FILE: wrappers.dfy ===
/** Failure-carrying wrappers used wherever the modelled code returns null,
    throws, or reports an error instead of a value. */
module Wrappers {

  /** A value that may be absent, standing in for a nullable reference. */
  datatype Option<+T> = None | Some(value: T) {

    predicate IsFailure() {
      None?
    }

    function PropagateFailure<U>(): Option<U>
      requires None?
    {
      None
    }

    function Extract(): T
      requires Some?
    {
      value
    }
  }

  /** Either a value or the error that stopped the computation. */
  datatype Result<+R, +E> = Success(value: R) | Failure(error: E) {

    predicate IsFailure() {
      Failure?
    }

    function PropagateFailure<U>(): Result<U, E>
      requires Failure?
    {
      Failure(error)
    }

    function Extract(): R
      requires Success?
    {
      value
    }
  }
}
